=== FILE: README.md ===
# MyAsync task engine in Dafny

A model of `MyTask`, the future of the MyAsync library. A task is completed once, with or without an exception. It holds one continuation slot. The library's combinators (`ContinueWith`, `Run`, `WhenAll`, `Iterate`) register callbacks that the thread pool runs later.

Every write of a task's fields, and every read but two, happens under that task's lock. The two unlocked reads both come after the task has completed:
- the delegate `Complete` queues reads `_context` and `_continuation` when a worker runs it (MyAsync/MyTask.cs:61-67);
- `Wait` reads `_exception` after its lock is released (MyAsync/MyTask.cs:88).

Once a task is completed its fields are never written again: `Complete` refuses to run twice, and `ContinueWith` on a completed task queues rather than storing. So both reads see the values fixed at completion. The model treats each public call as one atomic step on an immutable `World`, which holds:
- the tasks, indexed by `TaskId`;
- the thread pool's queue of work items;
- the counters `WhenAll` shares between its continuations;
- the enumerators `Iterate` walks.

Callbacks are data, not closures:
- `Wrapper(child, action)` is the delegate `ContinueWith` and `Run` build. It runs `action`, then calls `SetException` on `child` if the action threw and `SetResult` otherwise.
- An action is one of:
  - user code that returns or throws;
  - `WhenAll`'s decrement of a counter;
  - `Iterate`'s local `MoveNext`;
  - the reset event `Wait` registers.

The queue holds two kinds of item:
- `Invoke(cb)`, queued directly by `ContinueWith` on a completed task and by `Run`;
- `FireContinuation(t)`, the delegate `Complete` queues. It reads `t`'s slot when a worker runs it, not when it is queued.

A worker step takes any item off the queue and runs it to the end. The model allows any order of items. This includes every order the pool's workers can produce; with a single worker that order is first-in first-out.

The modules:
- `AsyncTypes` (types.dfy): the state and its well-formedness.
- `TaskCore` (task.dfy): `Complete`, `SetResult`, `SetException`, `IsCompleted`, `ContinueWith`, `Run`, `Wait`.
- `Execution` (exec.dfy): what the workers run, plus `WhenAll` and `Iterate`.
- `Delivery` (delivery.dfy): counts every place from which a callback can still reach a worker. It proves that `Complete` neither creates nor loses such a place, and that the complete/subscribe race delivers a wrapper exactly once.
- `System` (system.dfy): the engine as a transition system over interleavings of steps. A step is one public call made by user code, including `new MyTask()`, or one worker running a queued item.
- `Ownership` (ownership.dfy): the result task of `WhenAll` or `Iterate` is completed by nothing but its own counter or enumerator, unless user code completes it by hand.
- `WhenAllProofs`, `WhenAllInputs` and `WhenAllResult` (whenall.dfy, whenall_inputs.dfy, whenall_result.dfy): the counter reaches zero exactly when the last input's decrement runs, never while an input is incomplete, and only then is the result completed, successfully.
- `IterateProofs` (iterate.dfy): at most one `MoveNext` of an enumerator is ever on its way to running. Element k + 1 is pulled only once element k's task has completed. Nothing is pulled after `MoveNext` throws or runs out.
- `IterateResult` (iterate_result.dfy): the result of `Iterate` stays incomplete while a `MoveNext` is pending; once completed, it failed exactly when a `MoveNext` threw, and succeeded, with the enumerator disposed, exactly when every element was pulled.
- `Scenarios` (scenarios.dfy): complete runs.

Behaviours of the code a caller may not expect (the model follows the code in each):
- **Chains do not propagate failures.** The `ContinueWith` wrapper never looks at the parent's exception. A continuation of a failed task whose action returns completes its child successfully (`Scenarios.ContinueWithIgnoresParentFailure`).
- **`Iterate` ignores how element tasks end.** A failed element does not fail the result. Only a throwing `MoveNext` does (`Scenarios.IterateIgnoresFailedElement`).
- **`Iterate` does not dispose on a throw.** When `MoveNext` throws, the enumerator is not disposed. Only the path that runs out disposes it (`Scenarios.IterateFirstMoveNextThrows`).
- **`ContinueWith` on a completed task queues.** It queues the wrapper on the pool rather than running it on the caller's stack.
- **The slot is never cleared.** `Complete` leaves `_continuation` in place. The delegate it queues reads the slot when it runs.
- **There is one slot.** A later `ContinueWith` or `Wait` on an incomplete task overwrites an earlier continuation, which is then never run (`Delivery.LaterSubscriberDisplacesEarlier`). So `WhenAll` with the same incomplete input twice never completes (`WhenAllProofs.WhenAllRepeatedInputNeverReachesZero`). Likewise, a `ContinueWith` on the element task `Iterate` is waiting on drops its `MoveNext`, and the result of `Iterate` then never completes. On an input that has already completed, both subscriptions are queued and the result completes.

## Model

| member | source | states |
|---|---|---|
| TaskCore.NewTask | MyAsync/MyTask.cs:9-13 | `new MyTask()` is incomplete, with no exception and an empty slot, and has a fresh identity. No other part of the state changes. |
| TaskCore.Enqueue | MyAsync/MyThreadPool.cs:9 | `QueueWorkItem` puts the item last in the queue. Nothing queued earlier is lost or reordered, and no task changes. |
| TaskCore.IsCompleted | MyAsync/MyTask.cs:27-36 | Reads true exactly when `Complete` would fail with "already completed", and exactly when `Wait` would not block. |
| TaskCore.Complete | MyAsync/MyTask.cs:42-71 | On a completed task it fails with "already completed" and changes nothing, the queue included. Otherwise it records completion and exactly the given exception and leaves every other task alone. It appends one `FireContinuation` item when a continuation is registered and nothing otherwise. |
| TaskCore.SetResult | MyAsync/MyTask.cs:38 | Completes without an exception; it fails exactly when the task was already completed. |
| TaskCore.SetException | MyAsync/MyTask.cs:40 | Completes with the given exception; it fails exactly when the task was already completed. |
| TaskCore.IsCompletedStable | MyAsync/MyTask.cs:27-36 | Once `IsCompleted` reads true it stays true, with the same stored exception, in every later state. |
| TaskCore.CompletedAfterComplete | MyAsync/MyTask.cs:42-52 | After any `Complete`, the task reads as completed. The call succeeds iff it was not completed before. |
| TaskCore.ContinueWith | MyAsync/MyTask.cs:94-127 | Creates a fresh child. On a completed task it queues the wrapper and leaves the slot alone. On an incomplete task it stores the wrapper in the slot, replacing what was there, and queues nothing. |
| TaskCore.Run | MyAsync/MyTask.cs:129-149 | Creates a fresh task and queues the same wrapper around it at once. |
| TaskCore.RunIsContinueWithOnCompleted | MyAsync/MyTask.cs:129-149 | `Run` gives the same child and state as `ContinueWith` on a task that has already completed. |
| TaskCore.Wait | MyAsync/MyTask.cs:73-92 | On a completed task, returns iff no exception is stored and otherwise rethrows exactly the stored one. On an incomplete task, registers its reset event in the slot and blocks, queueing nothing. |
| Execution.CountDown | MyAsync/MyTask.cs:163-170 | Lowers this counter by one and no other. Only the call that takes it from one to zero completes the result, without an exception. Any other call changes no task and queues nothing. |
| Execution.MoveNext | MyAsync/MyTask.cs:196-216 | Next element is a task: advances the position by one and subscribes `MoveNext` to that task. A throwing `MoveNext`: fails the result with that exception without moving. Exhausted: disposes and completes the result successfully. |
| Execution.RunCallback | MyAsync/MyTask.cs:98-111 | The wrapper always completes its child. For user code on a fresh child, the child's exception is exactly what the action threw. The task it was registered on is not consulted. |
| Execution.RunItem | MyAsync/MyTask.cs:59-69 | The delegate `Complete` queued runs the callback found in the slot in the state it runs in, which completes that callback's child. With an empty slot it throws a null-delegate error and changes nothing. |
| Execution.Work | MyAsync/MyThreadPool.cs:17-28 | A worker removes one item and runs the callback it names, whose child ends completed. Every other queued item stays, in order, ahead of what the run queues. An item naming an empty slot only throws. |
| Execution.SubscribeAll | MyAsync/MyTask.cs:172-175 | Every input ends up subscribed to the decrement: a wrapper around it is on the queue if the input is completed, and in its slot otherwise. Tasks that are not inputs are untouched. |
| Execution.WhenAll | MyAsync/MyTask.cs:151-179 | With no inputs, the result is already completed successfully. Otherwise it creates a counter equal to the number of inputs, with a fresh incomplete result. Every input is subscribed: the decrement is queued for a completed input and in the slot of an incomplete one. |
| Execution.Iterate | MyAsync/MyTask.cs:190-221 | Creates a fresh result and enumerator and pulls the first element. Empty sequence: the result completes successfully. First `MoveNext` throws: the result fails with that exception. First element is a task: position 1, and the pull is queued if that task is completed and in its slot otherwise. |
| Delivery.CompleteConserves | MyAsync/MyTask.cs:54-69 | `Complete` neither creates nor loses a delivery of any callback. The slot's callback moves into the queued delegate. |
| Delivery.ContinueWithCount | MyAsync/MyTask.cs:113-124 | `ContinueWith` adds exactly its wrapper. On an incomplete task it loses exactly the callback it overwrites. |
| Delivery.ExactlyOnceDelivery | MyAsync/MyTask.cs:113-124 | For either order of one `Complete` and one `ContinueWith` on the same task, the wrapper is queued exactly once and waits in no slot. |
| Delivery.SubscribeThenComplete | MyAsync/MyTask.cs:42-71 | `ContinueWith` takes the lock first and stores the wrapper in the slot. `Complete` then succeeds and queues the wrapper exactly once, leaving it in no slot. |
| Delivery.CompleteThenSubscribe | MyAsync/MyTask.cs:113-124 | `Complete` takes the lock first. `ContinueWith` then finds the task completed and queues the wrapper exactly once, storing it in no slot. |
| Delivery.LaterSubscriberDisplacesEarlier | MyAsync/MyTask.cs:119-123 | Of two subscriptions to an incomplete task followed by `Complete`, only the second wrapper is ever delivered. |
| Delivery.QueuedNeverLost | MyAsync/MyTask.cs:59-69 | Appending to the queue and completing tasks never takes a queued delivery away, because completed slots are frozen. |
| Delivery.WorkConsumes | MyAsync/MyThreadPool.cs:19-27 | A worker running a delivery of a wrapper removes it for good. Nothing the run does can deliver that wrapper again. |
| System.ApplyCount | MyAsync/MyTask.cs:42-127 | No step creates a delivery of an existing callback. The one exception is a worker running `MoveNext`, which registers the next pull of the same enumerator. |
| System.DeliveryBounds | MyAsync/MyTask.cs:54-69 | Along any interleaving, a wrapper runs at most as often as it was pending at the start, and a queued delivery is never lost. |
| System.ExactlyOnceAfterEitherOrder | MyAsync/MyTask.cs:113-124 | After one `ContinueWith` and one `Complete` in either order, whatever steps follow, the wrapper has run exactly once or is still queued exactly once. |
| WhenAllProofs.CounterAlongTrace | MyAsync/MyTask.cs:163-170 | Along any interleaving, the counter drops by exactly one per decrement run. It never falls below the decrements still pending plus the initial slack. At zero, the result is completed. |
| WhenAllProofs.WhenAllStartsBalanced | MyAsync/MyTask.cs:161-175 | With distinct inputs, exactly one decrement is pending per input, matching the counter. |
| WhenAllProofs.SubscribeAllAtMost | MyAsync/MyTask.cs:172-175 | Subscribing any list of inputs, repeated ones included, adds at most one pending decrement per input. |
| WhenAllProofs.WhenAllStartsCovered | MyAsync/MyTask.cs:161-175 | For any non-empty list, repeated inputs included, no more decrements are pending than the counter. |
| WhenAllProofs.WhenAllCompletesAfterLast | MyAsync/MyTask.cs:163-170 | For any non-empty list of inputs, along any interleaving, the counter is the number of inputs minus the decrements run, which never exceed the inputs. When all have run, the result is completed. |
| WhenAllProofs.WhenAllRepeatedInputNeverReachesZero | MyAsync/MyTask.cs:172-175 | `WhenAll([t, t])` on an incomplete task leaves one decrement for a counter of two, so along any interleaving the counter never reaches zero. |
| Ownership.WhenAllCreatesOwned | MyAsync/MyTask.cs:153-175 | The result `WhenAll` creates is completed by no wrapper, no other counter and no enumerator. |
| Ownership.IterateCreatesOwned | MyAsync/MyTask.cs:192-218 | The result `Iterate` creates is completed by no wrapper, no counter and no other enumerator. |
| Ownership.ApplyOwned | MyAsync/MyTask.cs:163-215 | Every step except a hand-made `Complete` of an owned result leaves the result's outcome alone. The exception is the worker running the call that settles the owner. For a counter that is the decrement to zero, which completes the result successfully. For an enumerator it is the `MoveNext` that throws or finds the end, which fails the result with that exception or completes it successfully. |
| WhenAllInputs.SubscribeInputsDue | MyAsync/MyTask.cs:172-175 | Subscribing inputs queues exactly one decrement per list position whose input is already completed. Each other input gets the decrement in its own slot. |
| WhenAllInputs.ApplyDue | MyAsync/MyTask.cs:42-71 | No step raises the number of incomplete inputs plus queued decrements. A worker running a decrement lowers it by one. A decrement waiting in a slot always waits on an input, so only completing an input can queue one. |
| WhenAllInputs.InputsAlongTrace | MyAsync/MyTask.cs:161-175 | Along any interleaving, the counter is at least the number of incomplete inputs plus the decrements queued. |
| WhenAllInputs.CounterWaitsForInputs | MyAsync/MyTask.cs:163-170 | After `WhenAll` over any non-empty list and any interleaving, the counter reaches zero only once every input has completed. |
| WhenAllResult.ResultAlongTrace | MyAsync/MyTask.cs:165-168 | Along any interleaving without a hand-made `Complete` of the result, the result is completed iff the counter is zero, and then without an exception. |
| WhenAllResult.WhenAllResultExactlyAtLast | MyAsync/MyTask.cs:161-175 | After `WhenAll` over any non-empty list and any interleaving, the result is completed iff every input's decrement has run, and then successfully. It is never completed while an input is incomplete. |
| IterateProofs.RunActionPull | MyAsync/MyTask.cs:196-216 | `MoveNext` run while no other pull is pending either pulls exactly one element and leaves exactly one pull pending, attached to that element's task, or leaves nothing pending. |
| IterateProofs.WorkIter | MyAsync/MyTask.cs:196-205 | A worker step keeps the one-pull invariant. If it moves the enumerator on, by exactly one, it ran the pull attached to the last element pulled, whose task had completed. |
| IterateProofs.ApplyIter | MyAsync/MyTask.cs:196-216 | Every step keeps the one-pull invariant and never moves the enumerator back. Only a worker step moves it at all. |
| IterateProofs.IterateEstablishes | MyAsync/MyTask.cs:192-218 | `Iterate` starts the invariant. If the first element is a task, exactly one pull is pending. If the first `MoveNext` threw or found nothing, no pull is pending. |
| IterateProofs.IterStep | MyAsync/MyTask.cs:196-216 | One step moves an enumerator by at most one, only once the task of the element pulled last has completed. With nothing pending, it stays frozen. |
| IterateProofs.IterAlongTrace | MyAsync/MyTask.cs:207-215 | Along any interleaving, the invariant holds and the position only grows. Once nothing is pending (after a throw or the end), the enumerator never moves again. |
| IterateProofs.PulledAfterPredecessor | MyAsync/MyTask.cs:200-204 | Along any interleaving, element k + 1 is pulled only once the task of element k has completed. |
| IterateProofs.IteratePullsInOrder | MyAsync/MyTask.cs:190-221 | After `Iterate` and any interleaving, elements are pulled in order, each after its predecessor's task completed. A sequence that is empty or throws first is never pulled from, and its result keeps its outcome. |
| IterateResult.WorkPullMoves | MyAsync/MyTask.cs:196-221 | The worker running an enumerator's only pending `MoveNext` either pulls the next task and leaves one pull pending, or leaves nothing pending. In that case the enumerator stays at a throwing element or is disposed at the end. |
| IterateResult.IterResultAlongTrace | MyAsync/MyTask.cs:196-216 | Along any interleaving without a hand-made `Complete` of the result: it is incomplete while a pull is pending, and undisposed while incomplete. Once completed, its outcome matches where the enumerator stopped. |
| IterateResult.IterateSettles | MyAsync/MyTask.cs:190-221 | After `Iterate` and any interleaving, the result is incomplete while a `MoveNext` is pending. Once completed, it succeeded iff every element was pulled, and then the enumerator was disposed. It failed iff the next element's `MoveNext` throws, with exactly that exception, and then the enumerator was not disposed. |
| Scenarios.RunThenWait | MyAsync/MyTask.cs:133-146 | `Run` with an action that throws e, then a worker step: `Wait` rethrows e. With an action that returns, `Wait` returns. |
| Scenarios.WaitWakesAfterComplete | MyAsync/MyTask.cs:73-92 | `Wait` on an incomplete task registers its event. `Complete` queues it, and a worker sets it. `Wait` then reports the completed outcome. |
| Scenarios.ContinueWithIgnoresParentFailure | MyAsync/MyTask.cs:98-111 | A continuation of a failed task whose action returns completes its child successfully. |
| Scenarios.WhenAllIgnoresFailures | MyAsync/MyTask.cs:163-170 | `WhenAll` over a failed task completes the result successfully. |
| Scenarios.IterateIgnoresFailedElement | MyAsync/MyTask.cs:198-216 | `Iterate` over a failed task completes the result successfully and disposes the enumerator. |
| Scenarios.IterateFirstMoveNextThrows | MyAsync/MyTask.cs:207-211 | A first `MoveNext` that throws fails the result with that exception, pulls nothing, and leaves the enumerator undisposed. |

## Left out

- MyAsync/MyThreadPool.cs's threads, `Environment.ProcessorCount` and the `BlockingCollection` loop are replaced by the queue and a worker step that may take any item. This allows every order the concurrent workers could produce, and more.
- Execution contexts (`ExecutionContext.Capture` and `ExecutionContext.Run`, MyAsync/MyTask.cs:12, 61-67, 122, and the pool's capture) are dropped. They carry no completion logic.
- `Delay` (MyAsync/MyTask.cs:181-188) depends on a system timer, which is not modelled. What `Delay` does to tasks is covered by two user steps. `new MyTask()` is the `NewTaskOp` step, which any interleaving may take at any point. The timer firing later is the same as user code calling `SetResult`, which the `CompleteOp` step covers.
- `Wait`'s blocking on `ManualResetEventSlim` and its unlocked read of `_exception` are not modelled as blocking. `Wait` returns `Blocked` with the event's task. `Scenarios.WaitWakesAfterComplete` shows the wake-up.
- The `Awaiter` struct and the `AsyncMethodBuilder` attribute (MyAsync/MyTask.cs:6, 15-25) only bind `await` to `IsCompleted`, `ContinueWith` and `Wait`.
- `WhenAll` and `Iterate` are each one atomic step. In the code, `WhenAll` takes each input's lock separately inside its loop (MyAsync/MyTask.cs:172-175), and `Iterate`'s first `MoveNext` runs enumerator code under no lock (MyAsync/MyTask.cs:194-218). The pieces touch different tasks, one lock at a time. The model does not show that every finer interleaving matches one of its own.
- `Iterate`'s elements name tasks that exist before `Iterate` is called. A lazy enumerable that creates its tasks during `MoveNext` is not modelled; its elements would be tasks created in the step that pulls them.
- `Interlocked.Decrement` is one atomic step. The 32-bit `remaining` never wraps, because it starts at the list's count and only one decrement per subscription runs.
- A callback runs to completion as one step, so its own locked sections never interleave with other steps. That every finer interleaving has the same outcome as one of the model's is not proved. The argument is that each locked section touches one task's fields, and the unlocked reads see fields frozen by completion, so sections on different tasks commute.
- Null actions, null element tasks and null lists are not modelled. In C# they raise `NullReferenceException`.
- User exceptions are abstract codes (`Raised(code)`), and their stack traces are not modelled.
- Worker crashes are not modelled. An exception escaping a worker's callback can only be "already completed", when user code completed a wrapper's child by hand; in .NET it would be unhandled on the pool thread. The model returns it in the step's result and carries on.
- WhenAllResult.WhenAllResultExactlyAtLast: assumes no user step calls `SetResult`/`SetException` on the result by hand. The result is a public task, so such a call is possible in the source too, and then the result can complete early.
- Execution.MoveNext: assumes `enumerator.Dispose()` (MyAsync/MyTask.cs:213) returns. The call sits outside the `try`. If it throws on a worker, the wrapper stores that exception on the pull's child, and the result never completes. The "exhausted" case of the contract, and the success case of `IterateResult.IterateSettles`, hold only when `Dispose` returns.
- Execution.Iterate: assumes `tasks.GetEnumerator()` (MyAsync/MyTask.cs:194) and a `Dispose` on the first, synchronous `MoveNext` both return. Both sit outside the `try`. If either throws, `Iterate` itself throws to its caller, and no result task is handed out.
- IterateResult.IterateSettles: assumes no user step calls `SetResult`/`SetException` on the result by hand, as for `WhenAll`. It does not promise that the result ever completes: a later `ContinueWith` on the element task being waited on drops `MoveNext`.
- WhenAllProofs.CounterAlongTrace: states that the counter is at least the pending decrements, not equal to them. A later `ContinueWith` or `Wait` on an input overwrites its decrement, and then the counter never reaches zero.

=== FILE: delivery.dfy ===
/** Counting deliveries.  A callback is on its way to running when it sits
    in the slot of an incomplete task, when it is queued as an Invoke item,
    or when it sits in the slot of a task whose FireContinuation item is
    queued.  `Pending` counts these places; Complete moves a callback from
    the first kind of place to the third and never creates or loses one. */
module Delivery {
  import opened AsyncTypes
  import opened TaskCore
  import opened Execution

  /** Which callbacks are being counted. */
  datatype Selector = Exactly(callback: Callback) | Running(action: Action)

  predicate Selects(s: Selector, cb: Callback) {
    match s
    case Exactly(c) => cb == c
    case Running(a) => cb.action == a
  }

  function SlotWeight(t: Task, s: Selector): nat {
    if !t.completed && t.continuation.Some? && Selects(s, t.continuation.value) then 1 else 0
  }

  /** Selected callbacks waiting in the slots of incomplete tasks. */
  function InSlots(ts: seq<Task>, s: Selector): nat {
    if |ts| == 0 then 0 else SlotWeight(ts[0], s) + InSlots(ts[1..], s)
  }

  function ItemWeight(ts: seq<Task>, item: WorkItem, s: Selector): nat {
    match item
    case Invoke(cb) => if Selects(s, cb) then 1 else 0
    case FireContinuation(t) =>
      if t < |ts| && ts[t].continuation.Some? && Selects(s, ts[t].continuation.value) then 1 else 0
  }

  /** Selected callbacks the queue will run. */
  function Queued(ts: seq<Task>, q: seq<WorkItem>, s: Selector): nat {
    if |q| == 0 then 0 else ItemWeight(ts, q[0], s) + Queued(ts, q[1..], s)
  }

  function Pending(w: World, s: Selector): nat {
    Queued(w.tasks, w.pending, s) + InSlots(w.tasks, s)
  }

  // ----- arithmetic of the two counts -----

  lemma {:induction false} InSlotsAppend(ts: seq<Task>, x: Task, s: Selector)
    ensures InSlots(ts + [x], s) == InSlots(ts, s) + SlotWeight(x, s)
    decreases |ts|
  {
    if |ts| == 0 {
      assert InSlots([x], s) == SlotWeight(x, s) + InSlots([], s);
    } else {
      assert (ts + [x])[1..] == ts[1..] + [x];
      InSlotsAppend(ts[1..], x, s);
    }
  }

  lemma {:induction false} InSlotsUpdate(ts: seq<Task>, i: nat, x: Task, s: Selector)
    requires i < |ts|
    ensures InSlots(ts[i := x], s) == InSlots(ts, s) - SlotWeight(ts[i], s) + SlotWeight(x, s)
    decreases i
  {
    if i == 0 {
      assert ts[i := x][1..] == ts[1..];
    } else {
      assert ts[i := x][1..] == ts[1..][i - 1 := x];
      InSlotsUpdate(ts[1..], i - 1, x, s);
    }
  }

  lemma {:induction false} QueuedAppend(ts: seq<Task>, q: seq<WorkItem>, x: WorkItem, s: Selector)
    ensures Queued(ts, q + [x], s) == Queued(ts, q, s) + ItemWeight(ts, x, s)
    decreases |q|
  {
    if |q| == 0 {
      assert Queued(ts, [x], s) == ItemWeight(ts, x, s) + Queued(ts, [], s);
    } else {
      assert (q + [x])[1..] == q[1..] + [x];
      QueuedAppend(ts, q[1..], x, s);
    }
  }

  lemma {:induction false} QueuedConcat(ts: seq<Task>, a: seq<WorkItem>, b: seq<WorkItem>, s: Selector)
    ensures Queued(ts, a + b, s) == Queued(ts, a, s) + Queued(ts, b, s)
    decreases |a|
  {
    if |a| == 0 {
      assert a + b == b;
    } else {
      assert (a + b)[1..] == a[1..] + b;
      QueuedConcat(ts, a[1..], b, s);
    }
  }

  /** Taking item `i` off the queue removes exactly its own weight. */
  lemma QueuedRemove(ts: seq<Task>, q: seq<WorkItem>, i: nat, s: Selector)
    requires i < |q|
    ensures Queued(ts, q[..i] + q[i + 1..], s) == Queued(ts, q, s) - ItemWeight(ts, q[i], s)
  {
    assert q == q[..i] + ([q[i]] + q[i + 1..]);
    QueuedConcat(ts, q[..i], [q[i]] + q[i + 1..], s);
    QueuedConcat(ts, [q[i]], q[i + 1..], s);
    QueuedConcat(ts, q[..i], q[i + 1..], s);
    assert Queued(ts, [q[i]], s) == ItemWeight(ts, q[i], s) + Queued(ts, [], s);
  }

  /** The queue count depends on the tasks only through the slots the
      FireContinuation items look up. */
  lemma {:induction false} QueuedSameWeights(ts: seq<Task>, ts': seq<Task>, q: seq<WorkItem>, s: Selector)
    requires forall j :: 0 <= j < |q| ==> ItemWeight(ts, q[j], s) == ItemWeight(ts', q[j], s)
    ensures Queued(ts', q, s) == Queued(ts, q, s)
    decreases |q|
  {
    if |q| > 0 {
      assert forall j :: 0 <= j < |q| - 1 ==> q[1..][j] == q[j + 1];
      QueuedSameWeights(ts, ts', q[1..], s);
    }
  }

  /** Nothing in `w` mentions a selected callback. */
  predicate Unmentioned(w: World, s: Selector) {
    && (forall t :: 0 <= t < |w.tasks| && w.tasks[t].continuation.Some? ==>
          !Selects(s, w.tasks[t].continuation.value))
    && (forall i :: 0 <= i < |w.pending| && w.pending[i].Invoke? ==>
          !Selects(s, w.pending[i].callback))
  }

  lemma {:induction false} InSlotsZero(ts: seq<Task>, s: Selector)
    requires forall t :: 0 <= t < |ts| && ts[t].continuation.Some? ==> !Selects(s, ts[t].continuation.value)
    ensures InSlots(ts, s) == 0
    decreases |ts|
  {
    if |ts| > 0 {
      assert forall j :: 0 <= j < |ts| - 1 ==> ts[1..][j] == ts[j + 1];
      InSlotsZero(ts[1..], s);
    }
  }

  lemma {:induction false} QueuedZero(ts: seq<Task>, q: seq<WorkItem>, s: Selector)
    requires forall t :: 0 <= t < |ts| && ts[t].continuation.Some? ==> !Selects(s, ts[t].continuation.value)
    requires forall i :: 0 <= i < |q| && q[i].Invoke? ==> !Selects(s, q[i].callback)
    ensures Queued(ts, q, s) == 0
    decreases |q|
  {
    if |q| > 0 {
      assert forall j :: 0 <= j < |q| - 1 ==> q[1..][j] == q[j + 1];
      QueuedZero(ts, q[1..], s);
    }
  }

  lemma UnmentionedNothingPending(w: World, s: Selector)
    requires Unmentioned(w, s)
    ensures Pending(w, s) == 0
  {
    InSlotsZero(w.tasks, s);
    QueuedZero(w.tasks, w.pending, s);
  }

  /** The wrapper ContinueWith is about to build, around a child that does
      not exist yet, is nowhere in a well-formed state. */
  lemma NewWrapperUnmentioned(w: World, a: Action)
    requires WellFormed(w)
    ensures Unmentioned(w, Exactly(Wrapper(|w.tasks|, a)))
  {
    forall t | 0 <= t < |w.tasks| && w.tasks[t].continuation.Some?
      ensures w.tasks[t].continuation.value.child < |w.tasks|
    {
      assert SlotOk(w, w.tasks[t]);
    }
    forall i | 0 <= i < |w.pending| && w.pending[i].Invoke?
      ensures w.pending[i].callback.child < |w.tasks|
    {
      assert ItemOk(w, w.pending[i]);
    }
  }

  // ----- how each operation moves the count -----

  /** Complete neither creates nor loses a delivery: the slot's callback of
      a task being completed moves into the FireContinuation item. */
  lemma CompleteConserves(w: World, t: TaskId, e: Option<Err>, s: Selector)
    requires t < |w.tasks|
    ensures Pending(Complete(w, t, e).world, s) == Pending(w, s)
  {
    var w' := Complete(w, t, e).world;
    if !w.tasks[t].completed {
      assert w'.tasks == w.tasks[t := w'.tasks[t]];
      InSlotsUpdate(w.tasks, t, w'.tasks[t], s);
      assert SlotWeight(w'.tasks[t], s) == 0;
      forall j | 0 <= j < |w.pending|
        ensures ItemWeight(w.tasks, w.pending[j], s) == ItemWeight(w'.tasks, w.pending[j], s)
      {
      }
      QueuedSameWeights(w.tasks, w'.tasks, w.pending, s);
      if w.tasks[t].continuation.Some? {
        assert w'.pending == w.pending + [FireContinuation(t)];
        QueuedAppend(w'.tasks, w.pending, FireContinuation(t), s);
      } else {
        assert w'.pending == w.pending;
      }
    }
  }

  /** ContinueWith adds its wrapper and, on an incomplete task, drops the
      callback it overwrites. */
  lemma ContinueWithCount(w: World, t: TaskId, a: Action, s: Selector)
    requires WellFormed(w) && t < |w.tasks|
    ensures var added := if Selects(s, Wrapper(|w.tasks|, a)) then 1 else 0;
      var dropped := if w.tasks[t].completed then 0 else SlotWeight(w.tasks[t], s);
      Pending(ContinueWith(w, t, a).world, s) + dropped == Pending(w, s) + added
  {
    var r := ContinueWith(w, t, a);
    var w' := r.world;
    var cb := Wrapper(|w.tasks|, a);
    InSlotsAppend(w.tasks, Fresh, s);
    forall j | 0 <= j < |w.pending|
      ensures ItemWeight(w.tasks, w.pending[j], s) == ItemWeight(w'.tasks, w.pending[j], s)
    {
      assert ItemOk(w, w.pending[j]);
    }
    QueuedSameWeights(w.tasks, w'.tasks, w.pending, s);
    if w.tasks[t].completed {
      assert w'.tasks == w.tasks + [Fresh];
      QueuedAppend(w'.tasks, w.pending, Invoke(cb), s);
    } else {
      var ts1 := w.tasks + [Fresh];
      assert w'.tasks == ts1[t := w.tasks[t].(continuation := Some(cb))];
      InSlotsUpdate(ts1, t, w.tasks[t].(continuation := Some(cb)), s);
    }
  }

  /** ContinueWith on an incomplete task, then Complete: the wrapper is
      queued once and left in no slot. */
  lemma SubscribeThenComplete(w: World, t: TaskId, e: Option<Err>, a: Action)
    requires WellFormed(w) && t < |w.tasks| && !w.tasks[t].completed
    ensures var cb := Exactly(Wrapper(|w.tasks|, a));
      var r := Complete(ContinueWith(w, t, a).world, t, e);
      && r.thrown == None
      && Queued(r.world.tasks, r.world.pending, cb) == 1
      && InSlots(r.world.tasks, cb) == 0
  {
    var cb := Exactly(Wrapper(|w.tasks|, a));
    NewWrapperUnmentioned(w, a);
    UnmentionedNothingPending(w, cb);
    var s1 := ContinueWith(w, t, a);
    ContinueWithCount(w, t, a, cb);
    var c1 := Complete(s1.world, t, e);
    CompleteConserves(s1.world, t, e, cb);
    SlotsOfCompletedOnly(c1.world, t, cb);
  }

  /** Complete on an incomplete task, then ContinueWith: the wrapper is
      queued once and left in no slot. */
  lemma CompleteThenSubscribe(w: World, t: TaskId, e: Option<Err>, a: Action)
    requires WellFormed(w) && t < |w.tasks| && !w.tasks[t].completed
    ensures var cb := Exactly(Wrapper(|w.tasks|, a));
      var r := ContinueWith(Complete(w, t, e).world, t, a);
      && r.task == |w.tasks|
      && Queued(r.world.tasks, r.world.pending, cb) == 1
      && InSlots(r.world.tasks, cb) == 0
  {
    var cb := Exactly(Wrapper(|w.tasks|, a));
    NewWrapperUnmentioned(w, a);
    UnmentionedNothingPending(w, cb);
    var c2 := Complete(w, t, e);
    CompleteConserves(w, t, e, cb);
    var s2 := ContinueWith(c2.world, t, a);
    ContinueWithCount(c2.world, t, a, cb);
    SlotsOfCompletedOnly(s2.world, t, cb);
  }

  /** Exactly-once delivery: whichever of one Complete and one ContinueWith
      on the same task takes the lock first, the wrapper ends up queued
      exactly once and waits in no slot. */
  lemma ExactlyOnceDelivery(w: World, t: TaskId, e: Option<Err>, a: Action)
    requires WellFormed(w) && t < |w.tasks| && !w.tasks[t].completed
    ensures var cb := Exactly(Wrapper(|w.tasks|, a));
      var subscribeFirst := Complete(ContinueWith(w, t, a).world, t, e);
      var completeFirst := ContinueWith(Complete(w, t, e).world, t, a);
      && subscribeFirst.thrown == None
      && completeFirst.task == |w.tasks|
      && Queued(subscribeFirst.world.tasks, subscribeFirst.world.pending, cb) == 1
      && InSlots(subscribeFirst.world.tasks, cb) == 0
      && Queued(completeFirst.world.tasks, completeFirst.world.pending, cb) == 1
      && InSlots(completeFirst.world.tasks, cb) == 0
  {
    SubscribeThenComplete(w, t, e, a);
    CompleteThenSubscribe(w, t, e, a);
  }

  /** The only slot that could hold a given wrapper belongs to a completed
      task, so no slot counts. */
  lemma SlotsOfCompletedOnly(w: World, t: TaskId, s: Selector)
    requires t < |w.tasks| && w.tasks[t].completed
    requires forall u :: 0 <= u < |w.tasks| && u != t && w.tasks[u].continuation.Some? ==>
      !Selects(s, w.tasks[u].continuation.value)
    ensures InSlots(w.tasks, s) == 0
  {
    var ts := w.tasks[t := w.tasks[t].(continuation := None)];
    InSlotsZero(ts, s);
    InSlotsUpdate(ts, t, w.tasks[t], s);
    assert ts[t := w.tasks[t]] == w.tasks;
  }

  /** Pending depends on nothing but the tasks and the queue. */
  lemma PendingOfSameTasksAndQueue(w: World, w': World, s: Selector)
    requires w'.tasks == w.tasks && w'.pending == w.pending
    ensures Pending(w', s) == Pending(w, s)
  {
  }

  /** A later subscriber displaces an earlier one: of two ContinueWith calls
      on an incomplete task followed by Complete, only the second wrapper is
      ever delivered. */
  lemma LaterSubscriberDisplacesEarlier(w: World, t: TaskId, a1: Action, a2: Action, e: Option<Err>)
    requires WellFormed(w) && t < |w.tasks| && !w.tasks[t].completed && ActionOk(w, a1)
    ensures var s1 := ContinueWith(w, t, a1);
      var s2 := ContinueWith(s1.world, t, a2);
      var c := Complete(s2.world, t, e);
      && Pending(c.world, Exactly(Wrapper(s1.task, a1))) == 0
      && Pending(c.world, Exactly(Wrapper(s2.task, a2))) == 1
  {
    var s1 := ContinueWith(w, t, a1);
    var cb1 := Exactly(Wrapper(s1.task, a1));
    NewWrapperUnmentioned(w, a1);
    UnmentionedNothingPending(w, cb1);
    ContinueWithCount(w, t, a1, cb1);
    var s2 := ContinueWith(s1.world, t, a2);
    var cb2 := Exactly(Wrapper(s2.task, a2));
    ContinueWithCount(s1.world, t, a2, cb1);
    NewWrapperUnmentioned(s1.world, a2);
    UnmentionedNothingPending(s1.world, cb2);
    ContinueWithCount(s1.world, t, a2, cb2);
    CompleteConserves(s2.world, t, e, cb1);
    CompleteConserves(s2.world, t, e, cb2);
  }

  /** Appending to the queue and completing tasks never takes a queued
      delivery away: FireContinuation items name completed tasks, whose
      slots are frozen. */
  lemma QueuedNeverLost(w: World, q: seq<WorkItem>, w': World, s: Selector)
    requires Evolves(w, w') && q <= w'.pending
    requires forall j :: 0 <= j < |q| ==> ItemOk(w, q[j])
    ensures Queued(w.tasks, q, s) <= Queued(w'.tasks, w'.pending, s)
  {
    forall j | 0 <= j < |q|
      ensures ItemWeight(w.tasks, q[j], s) == ItemWeight(w'.tasks, q[j], s)
    {
      assert ItemOk(w, q[j]);
    }
    QueuedSameWeights(w.tasks, w'.tasks, q, s);
    assert w'.pending == q + w'.pending[|q|..];
    QueuedConcat(w'.tasks, q, w'.pending[|q|..], s);
  }

  /** Whether running an action may register a new selected wrapper: only
      MoveNext registers anything, around the next child to be created. */
  predicate MaySpawn(w: World, a: Action, s: Selector) {
    a.PullNext? && Selects(s, Wrapper(|w.tasks|, a))
  }

  /** Running an action adds at most the one wrapper MoveNext registers. */
  lemma RunActionCount(w: World, a: Action, s: Selector)
    requires WellFormed(w) && ActionOk(w, a)
    ensures Pending(RunAction(w, a).world, s) <= Pending(w, s) + (if MaySpawn(w, a, s) then 1 else 0)
  {
    match a
    case UserCode(_) =>
    case SignalWaiter =>
    case Decrement(k) =>
      var c := w.counters[k];
      var w1 := w.(counters := w.counters[k := c.(remaining := c.remaining - 1)]);
      PendingOfSameTasksAndQueue(w, w1, s);
      if c.remaining - 1 == 0 {
        CompleteConserves(w1, c.result, None, s);
      }
    case PullNext(i) =>
      var en := w.enumerators[i];
      assert EnumeratorOk(w, en);
      if en.pulled < |en.elements| {
        match en.elements[en.pulled]
        case MoveNextThrows(e) =>
          CompleteConserves(w, en.result, Some(e), s);
        case Yields(t) =>
          var w1 := w.(enumerators := w.enumerators[i := en.(pulled := en.pulled + 1)]);
          assert EnumeratorOk(w1, w1.enumerators[i]);
          assert ElementOk(w, en.elements[en.pulled]);
          PendingOfSameTasksAndQueue(w, w1, s);
          ContinueWithCount(w1, t, PullNext(i), s);
      } else {
        var w1 := w.(enumerators := w.enumerators[i := en.(disposed := true)]);
        assert EnumeratorOk(w1, w1.enumerators[i]);
        PendingOfSameTasksAndQueue(w, w1, s);
        CompleteConserves(w1, en.result, None, s);
      }
  }

  lemma RunCallbackCount(w: World, cb: Callback, s: Selector)
    requires WellFormed(w) && CallbackOk(w, cb)
    ensures Pending(RunCallback(w, cb).world, s) <= Pending(w, s) + (if MaySpawn(w, cb.action, s) then 1 else 0)
  {
    var r := RunAction(w, cb.action);
    RunActionCount(w, cb.action, s);
    CompleteConserves(r.world, cb.child, r.thrown, s);
  }

  /** A worker step consumes the delivery it runs and adds at most the one
      wrapper MoveNext registers. */
  lemma WorkCount(w: World, i: nat, s: Selector)
    requires WellFormed(w) && i < |w.pending|
    ensures var cb := ItemCallback(w, w.pending[i]);
      Pending(Work(w, i).world, s) + ItemWeight(w.tasks, w.pending[i], s)
        <= Pending(w, s) + (if cb.Some? && MaySpawn(w, cb.value.action, s) then 1 else 0)
  {
    var item := w.pending[i];
    var w1 := w.(pending := w.pending[..i] + w.pending[i + 1..]);
    RemovePreservesWellFormed(w, i);
    QueuedRemove(w.tasks, w.pending, i, s);
    match item
    case Invoke(cb) =>
      RunCallbackCount(w1, cb, s);
    case FireContinuation(t) =>
      if w.tasks[t].continuation.Some? {
        assert SlotOk(w, w.tasks[t]);
        RunCallbackCount(w1, w.tasks[t].continuation.value, s);
      }
  }

  /** Running the item that delivers an existing callback removes that
      delivery for good: nothing the run does can queue it again. */
  lemma WorkConsumes(w: World, i: nat, cb: Callback)
    requires WellFormed(w) && i < |w.pending| && cb.child < |w.tasks|
    ensures Pending(Work(w, i).world, Exactly(cb)) + ItemWeight(w.tasks, w.pending[i], Exactly(cb))
      <= Pending(w, Exactly(cb))
  {
    WorkCount(w, i, Exactly(cb));
  }

  /** A selected callback in some slot is counted. */
  lemma {:induction false} InSlotsCounts(ts: seq<Task>, v: nat, s: Selector)
    requires v < |ts|
    ensures SlotWeight(ts[v], s) <= InSlots(ts, s)
    decreases v
  {
    if v > 0 {
      InSlotsCounts(ts[1..], v - 1, s);
    }
  }

  /** A queued selected delivery is counted. */
  lemma {:induction false} QueuedCounts(ts: seq<Task>, q: seq<WorkItem>, j: nat, s: Selector)
    requires j < |q|
    ensures ItemWeight(ts, q[j], s) <= Queued(ts, q, s)
    decreases j
  {
    if j > 0 {
      QueuedCounts(ts, q[1..], j - 1, s);
    }
  }
}

=== FILE: exec.dfy ===
/** What runs on the thread pool: the wrapper ContinueWith and Run build,
    the delegate Complete queues, WhenAll's shared continuation and
    Iterate's MoveNext; plus the two combinators that create them.

    A worker step takes any one item off the queue (several workers take
    items concurrently, so any queued item may be the next to run) and runs
    it to the end as one atomic step. */
module Execution {
  import opened AsyncTypes
  import opened TaskCore

  /** WhenAll's continuation: `Interlocked.Decrement(ref remaining)`, and
      SetResult on the result task by the caller that sees zero. */
  function CountDown(w: World, k: nat): (r: Step)
    requires WellFormed(w) && k < |w.counters|
    ensures Evolves(w, r.world) && WellFormed(r.world)
    ensures w.pending <= r.world.pending
    ensures |r.world.counters| == |w.counters| && r.world.enumerators == w.enumerators
    ensures r.world.counters[k] == w.counters[k].(remaining := w.counters[k].remaining - 1)
    ensures forall j :: 0 <= j < |w.counters| && j != k ==> r.world.counters[j] == w.counters[j]
    ensures w.counters[k].remaining != 1 ==>
      r.world.tasks == w.tasks && r.world.pending == w.pending && r.thrown == None
    ensures w.counters[k].remaining == 1 ==>
      && r.world.tasks[w.counters[k].result].completed
      && (r.thrown == None <==> !w.tasks[w.counters[k].result].completed)
      && (r.thrown == None ==> r.world.tasks[w.counters[k].result].exception == None)
  {
    var c := w.counters[k];
    var w1 := w.(counters := w.counters[k := c.(remaining := c.remaining - 1)]);
    if c.remaining - 1 == 0 then
      SetResult(w1, c.result)
    else
      Step(w1, None)
  }

  /** Iterate's local MoveNext: pull one element; on a task, subscribe
      MoveNext to it and return; on a throwing MoveNext, fail the result; at
      the end, dispose the enumerator and complete the result.  Disposing
      always returns: an enumerator whose Dispose throws is not modelled. */
  function MoveNext(w: World, i: nat): (r: Step)
    requires WellFormed(w) && i < |w.enumerators|
    ensures Evolves(w, r.world) && WellFormed(r.world)
    ensures w.pending <= r.world.pending
    ensures r.world.counters == w.counters && |r.world.enumerators| == |w.enumerators|
    ensures forall j :: 0 <= j < |w.enumerators| && j != i ==> r.world.enumerators[j] == w.enumerators[j]
    ensures var en := w.enumerators[i];
      en.pulled < |en.elements| && en.elements[en.pulled].Yields? ==>
        var t := en.elements[en.pulled].task;
        && r.thrown == None
        && r.world.enumerators[i] == en.(pulled := en.pulled + 1)
        && |r.world.tasks| == |w.tasks| + 1
        && r.world.tasks[|w.tasks|] == Fresh
        && (forall u :: 0 <= u < |w.tasks| && u != t ==> r.world.tasks[u] == w.tasks[u])
        && (w.tasks[t].completed ==>
              r.world.pending == w.pending + [Invoke(Wrapper(|w.tasks|, PullNext(i)))])
        && (!w.tasks[t].completed ==>
              && r.world.tasks[t] == w.tasks[t].(continuation := Some(Wrapper(|w.tasks|, PullNext(i))))
              && r.world.pending == w.pending)
    ensures var en := w.enumerators[i];
      en.pulled < |en.elements| && en.elements[en.pulled].MoveNextThrows? ==>
        && r.world.enumerators[i] == en
        && r.world.tasks[en.result].completed
        && (r.thrown == None <==> !w.tasks[en.result].completed)
        && (r.thrown == None ==>
              r.world.tasks[en.result].exception == Some(en.elements[en.pulled].error))
    ensures var en := w.enumerators[i];
      en.pulled == |en.elements| ==>
        && r.world.enumerators[i] == en.(disposed := true)
        && r.world.tasks[en.result].completed
        && (r.thrown == None <==> !w.tasks[en.result].completed)
        && (r.thrown == None ==> r.world.tasks[en.result].exception == None)
  {
    var en := w.enumerators[i];
    if en.pulled < |en.elements| then
      match en.elements[en.pulled]
      case MoveNextThrows(e) =>
        SetException(w, en.result, e)
      case Yields(t) =>
        var w1 := w.(enumerators := w.enumerators[i := en.(pulled := en.pulled + 1)]);
        assert EnumeratorOk(w1, w1.enumerators[i]);
        Step(ContinueWith(w1, t, PullNext(i)).world, None)
    else
      var w1 := w.(enumerators := w.enumerators[i := en.(disposed := true)]);
      assert EnumeratorOk(w1, w1.enumerators[i]);
      SetResult(w1, en.result)
  }

  /** Invoking the delegate wrapped by a callback. */
  function RunAction(w: World, a: Action): (r: Step)
    requires WellFormed(w) && ActionOk(w, a)
    ensures Evolves(w, r.world) && WellFormed(r.world)
    ensures w.pending <= r.world.pending
    ensures a.UserCode? ==> r == Step(w, a.raises)
    ensures a.SignalWaiter? ==> r == Step(w, None)
  {
    match a
    case UserCode(raises) => Step(w, raises)
    case SignalWaiter => Step(w, None)
    case Decrement(k) => CountDown(w, k)
    case PullNext(i) => MoveNext(w, i)
  }

  /** The wrapper: run the action; if it throws, SetException on the child
      with that exception, otherwise SetResult.  Never consults the task the
      wrapper was registered on. */
  function RunCallback(w: World, cb: Callback): (r: Step)
    requires WellFormed(w) && CallbackOk(w, cb)
    ensures Evolves(w, r.world) && WellFormed(r.world)
    ensures w.pending <= r.world.pending
    ensures r.world.tasks[cb.child].completed
    ensures cb.action.UserCode? && !w.tasks[cb.child].completed ==>
      && r.thrown == None
      && r.world.tasks[cb.child].exception == cb.action.raises
      && (forall u :: 0 <= u < |w.tasks| && u != cb.child ==> r.world.tasks[u] == w.tasks[u])
  {
    var s := RunAction(w, cb.action);
    match s.thrown
    case Some(e) => SetException(s.world, cb.child, e)
    case None => SetResult(s.world, cb.child)
  }

  /** The callback a queued item will run, looked up when it runs. */
  function ItemCallback(w: World, item: WorkItem): Option<Callback> {
    match item
    case Invoke(cb) => Some(cb)
    case FireContinuation(t) => if t < |w.tasks| then w.tasks[t].continuation else None
  }

  /** One queued item run by a worker.  The delegate Complete queued looks
      up the slot only now: it runs whatever callback the slot holds in the
      state it runs in, and with an empty slot the invocation of a null
      delegate throws. */
  function RunItem(w: World, item: WorkItem): (r: Step)
    requires WellFormed(w) && ItemOk(w, item)
    ensures Evolves(w, r.world) && WellFormed(r.world)
    ensures w.pending <= r.world.pending
    ensures var cb := ItemCallback(w, item);
      && (cb.None? ==> r == Step(w, Some(NullContinuation)))
      && (cb.Some? ==>
            && CallbackOk(w, cb.value)
            && r == RunCallback(w, cb.value)
            && cb.value.child < |r.world.tasks|
            && r.world.tasks[cb.value.child].completed)
  {
    match item
    case Invoke(cb) => RunCallback(w, cb)
    case FireContinuation(t) =>
      match w.tasks[t].continuation
      case None => Step(w, Some(NullContinuation))
      case Some(cb) => RunCallback(w, cb)
  }

  /** A worker takes the item at position `i` off the queue and runs it:
      the callback the item names when it runs completes its child, and an
      empty slot leaves the rest of the queue alone and throws. */
  function Work(w: World, i: nat): (r: Step)
    requires WellFormed(w) && i < |w.pending|
    ensures Evolves(w, r.world) && WellFormed(r.world)
    ensures w.pending[..i] + w.pending[i + 1..] <= r.world.pending
    ensures var cb := ItemCallback(w, w.pending[i]);
      && (cb.None? ==>
            r == Step(w.(pending := w.pending[..i] + w.pending[i + 1..]), Some(NullContinuation)))
      && (cb.Some? ==> cb.value.child < |r.world.tasks| && r.world.tasks[cb.value.child].completed)
  {
    var item := w.pending[i];
    var w1 := w.(pending := w.pending[..i] + w.pending[i + 1..]);
    RemovePreservesWellFormed(w, i);
    RunItem(w1, item)
  }

  /** A worker step runs the callback its item names, from the queue
      without that item. */
  lemma WorkRuns(w: World, i: nat)
    requires WellFormed(w) && i < |w.pending|
    ensures var w1 := w.(pending := w.pending[..i] + w.pending[i + 1..]);
      var cb := ItemCallback(w, w.pending[i]);
      && WellFormed(w1)
      && (cb.None? ==> Work(w, i).world == w1)
      && (cb.Some? ==> CallbackOk(w1, cb.value) && Work(w, i) == RunCallback(w1, cb.value))
  {
    RemovePreservesWellFormed(w, i);
    if w.pending[i].FireContinuation? {
      assert ItemOk(w, w.pending[i]);
      assert SlotOk(w, w.tasks[w.pending[i].task]);
    } else {
      assert ItemOk(w, w.pending[i]);
    }
  }

  /** A task is subscribed to `a` when a wrapper around `a` is on the queue
      (the task is completed) or waits in its slot (it is not). */
  predicate Subscribed(w: World, t: TaskId, a: Action)
    requires t < |w.tasks|
  {
    if w.tasks[t].completed then
      exists q :: 0 <= q < |w.pending| && w.pending[q].Invoke? && w.pending[q].callback.action == a
    else
      w.tasks[t].continuation.Some? && w.tasks[t].continuation.value.action == a
  }

  /** The `foreach (var t in tasks) t.ContinueWith(continuation)` loop. */
  function SubscribeAll(w: World, ts: seq<TaskId>, a: Action): (r: World)
    requires forall j :: 0 <= j < |ts| ==> ts[j] < |w.tasks|
    ensures Evolves(w, r) && w.pending <= r.pending
    ensures WellFormed(w) && ActionOk(w, a) ==> WellFormed(r)
    ensures |r.tasks| == |w.tasks| + |ts|
    ensures r.counters == w.counters && r.enumerators == w.enumerators
    ensures forall j :: 0 <= j < |ts| ==> Subscribed(r, ts[j], a)
    ensures forall u :: 0 <= u < |w.tasks| && u !in ts ==> r.tasks[u] == w.tasks[u]
    decreases |ts|
  {
    if |ts| == 0 then
      w
    else
      var s := ContinueWith(w, ts[0], a);
      var r := SubscribeAll(s.world, ts[1..], a);
      assert forall j :: 1 <= j < |ts| ==> ts[j] == ts[1..][j - 1];
      assert w.tasks[ts[0]].completed ==> s.world.pending[|w.pending|].callback.action == a;
      assert Subscribed(s.world, ts[0], a);
      SubscribedStable(s.world, r, ts[0], a, ts[1..]);
      r
  }

  /** Subscribing further tasks never unsubscribes one. */
  lemma SubscribedStable(w: World, r: World, t: TaskId, a: Action, rest: seq<TaskId>)
    requires t < |w.tasks| && Evolves(w, r) && w.pending <= r.pending && Subscribed(w, t, a)
    requires t in rest ==> Subscribed(r, t, a)
    requires t !in rest ==> r.tasks[t] == w.tasks[t]
    ensures Subscribed(r, t, a)
  {
  }

  /** WhenAll(tasks): no input gives a result completed at once; otherwise a
      counter set to the number of inputs and its decrement registered on
      every input. */
  function WhenAll(w: World, ts: seq<TaskId>): (r: Spawned)
    requires forall j :: 0 <= j < |ts| ==> ts[j] < |w.tasks|
    ensures Evolves(w, r.world) && w.pending <= r.world.pending
    ensures WellFormed(w) ==> WellFormed(r.world)
    ensures r.task == |w.tasks| && r.task < |r.world.tasks|
    ensures r.world.enumerators == w.enumerators
    ensures |ts| == 0 ==> r.world.tasks[r.task] == Task(true, None, None) && r.world.counters == w.counters
    ensures |ts| > 0 ==>
      && r.world.counters == w.counters + [Counter(|ts|, r.task)]
      && r.world.tasks[r.task] == Fresh
      && (forall j :: 0 <= j < |ts| ==> Subscribed(r.world, ts[j], Decrement(|w.counters|)))
  {
    var s := NewTask(w);
    if |ts| == 0 then
      Spawned(SetResult(s.world, s.task).world, s.task)
    else
      var k := |w.counters|;
      var w1 := s.world.(counters := s.world.counters + [Counter(|ts|, s.task)]);
      assert Evolves(w, w1) && w1.tasks[s.task] == Fresh;
      assert s.task !in ts;
      assert WellFormed(w) ==> WellFormed(w1);
      Spawned(SubscribeAll(w1, ts, Decrement(k)), s.task)
  }

  /** Iterate(tasks): a fresh result task and enumerator, and the first
      MoveNext called synchronously. */
  function Iterate(w: World, elements: seq<Element>): (r: Spawned)
    requires WellFormed(w)
    requires forall j :: 0 <= j < |elements| ==> ElementOk(w, elements[j])
    ensures Evolves(w, r.world) && WellFormed(r.world) && w.pending <= r.world.pending
    ensures r.task == |w.tasks| && r.task < |r.world.tasks|
    ensures r.world.counters == w.counters
    ensures |r.world.enumerators| == |w.enumerators| + 1
    ensures forall j :: 0 <= j < |w.enumerators| ==> r.world.enumerators[j] == w.enumerators[j]
    ensures r.world.enumerators[|w.enumerators|].result == r.task
    ensures r.world.enumerators[|w.enumerators|].elements == elements
    ensures r.world.enumerators[|w.enumerators|].disposed <==> |elements| == 0
    ensures |elements| == 0 ==> r.world.tasks[r.task] == Task(true, None, None)
    ensures |elements| > 0 && elements[0].MoveNextThrows? ==>
      && r.world.tasks[r.task] == Task(true, Some(elements[0].error), None)
      && r.world.enumerators[|w.enumerators|].pulled == 0
    ensures |elements| > 0 && elements[0].Yields? ==>
      && r.world.tasks[r.task] == Fresh
      && r.world.enumerators[|w.enumerators|].pulled == 1
      && Subscribed(r.world, elements[0].task, PullNext(|w.enumerators|))
  {
    var s := NewTask(w);
    var i := |w.enumerators|;
    var w1 := s.world.(enumerators := s.world.enumerators + [Enumerator(elements, 0, false, s.task)]);
    assert forall j :: 0 <= j < |elements| ==> ElementOk(w1, elements[j]) by {
      forall j | 0 <= j < |elements| ensures ElementOk(w1, elements[j]) {
        assert ElementOk(w, elements[j]);
      }
    }
    assert EnumeratorOk(w1, w1.enumerators[i]);
    assert w1.enumerators[i] == Enumerator(elements, 0, false, s.task);
    var m := MoveNext(w1, i);
    assert |elements| > 0 ==> ElementOk(w, elements[0]);
    assert |elements| > 0 && elements[0].Yields? && w1.tasks[elements[0].task].completed ==>
      m.world.pending[|w1.pending|].callback.action == PullNext(i);
    assert m.thrown == None;
    Spawned(m.world, s.task)
  }
}

=== FILE: iterate.dfy ===
/** Iterate's pull-one-then-subscribe loop.  At any moment at most one
    MoveNext of an enumerator is on its way to running, and it is attached to
    the task of the element pulled last: in that task's slot while the task
    is incomplete, in its FireContinuation item, or queued directly because
    the task had already completed.  So element k + 1 is pulled only by a
    worker running the continuation of element k, after element k's task
    has completed; and once MoveNext has thrown or run out, nothing is ever
    pulled again. */
module IterateProofs {
  import opened AsyncTypes
  import opened TaskCore
  import opened Execution
  import opened Delivery
  import opened System

  function Pull(n: nat): Selector {
    Running(PullNext(n))
  }

  /** A queued pull of the enumerator is attached to task `u`. */
  ghost predicate ItemAt(w: World, item: WorkItem, u: TaskId) {
    match item
    case Invoke(_) => u < |w.tasks| && w.tasks[u].completed
    case FireContinuation(v) => v == u
  }

  /** Every pull of enumerator `n` on its way to running is attached to `u`. */
  ghost predicate PullsAt(w: World, n: nat, u: TaskId) {
    && (forall v :: 0 <= v < |w.tasks| && SlotWeight(w.tasks[v], Pull(n)) == 1 ==> v == u)
    && (forall j :: 0 <= j < |w.pending| && ItemWeight(w.tasks, w.pending[j], Pull(n)) == 1 ==>
          ItemAt(w, w.pending[j], u))
  }

  /** The loop invariant of enumerator `n`. */
  ghost predicate IterInv(w: World, n: nat)
    requires n < |w.enumerators|
  {
    var en := w.enumerators[n];
    && Pending(w, Pull(n)) <= 1
    && (Pending(w, Pull(n)) == 1 ==>
          && 0 < en.pulled <= |en.elements|
          && en.elements[en.pulled - 1].Yields?
          && PullsAt(w, n, en.elements[en.pulled - 1].task))
  }

  lemma NoPullsAnywhere(w: World, n: nat, u: TaskId)
    requires Pending(w, Pull(n)) == 0
    ensures PullsAt(w, n, u)
  {
    forall v | 0 <= v < |w.tasks|
      ensures SlotWeight(w.tasks[v], Pull(n)) == 0
    {
      InSlotsCounts(w.tasks, v, Pull(n));
    }
    forall j | 0 <= j < |w.pending|
      ensures ItemWeight(w.tasks, w.pending[j], Pull(n)) == 0
    {
      QueuedCounts(w.tasks, w.pending, j, Pull(n));
    }
  }

  lemma PullsAtSameTasksAndQueue(w: World, w': World, n: nat, u: TaskId)
    requires w'.tasks == w.tasks && w'.pending == w.pending && PullsAt(w, n, u)
    ensures PullsAt(w', n, u)
  {
  }

  lemma NewTaskPullsAt(w: World, n: nat, u: TaskId)
    requires WellFormed(w) && PullsAt(w, n, u)
    ensures PullsAt(NewTask(w).world, n, u)
  {
    var r := NewTask(w).world;
    forall j | 0 <= j < |w.pending|
      ensures ItemWeight(r.tasks, w.pending[j], Pull(n)) == ItemWeight(w.tasks, w.pending[j], Pull(n))
    {
      assert ItemOk(w, w.pending[j]);
    }
  }

  /** Completing any task keeps the pulls where they are: a pull leaving a
      slot goes into the FireContinuation item of the same task. */
  lemma CompletePullsAt(w: World, t: TaskId, e: Option<Err>, n: nat, u: TaskId)
    requires t < |w.tasks| && PullsAt(w, n, u)
    ensures PullsAt(Complete(w, t, e).world, n, u)
  {
    var r := Complete(w, t, e).world;
    if !w.tasks[t].completed {
      forall j | 0 <= j < |r.pending| && ItemWeight(r.tasks, r.pending[j], Pull(n)) == 1
        ensures ItemAt(r, r.pending[j], u)
      {
        if j < |w.pending| {
          assert r.pending[j] == w.pending[j];
          assert ItemWeight(w.tasks, w.pending[j], Pull(n)) == 1;
        } else {
          assert r.pending[j] == FireContinuation(t);
          assert SlotWeight(w.tasks[t], Pull(n)) == 1;
        }
      }
    }
  }

  /** Registering anything but this enumerator's MoveNext moves no pull. */
  lemma ContinueWithOtherPullsAt(w: World, t: TaskId, a: Action, n: nat, u: TaskId)
    requires WellFormed(w) && t < |w.tasks| && a != PullNext(n) && PullsAt(w, n, u)
    ensures PullsAt(ContinueWith(w, t, a).world, n, u)
  {
    var r := ContinueWith(w, t, a).world;
    forall j | 0 <= j < |w.pending|
      ensures ItemWeight(r.tasks, w.pending[j], Pull(n)) == ItemWeight(w.tasks, w.pending[j], Pull(n))
    {
      assert ItemOk(w, w.pending[j]);
    }
    forall j | 0 <= j < |r.pending| && ItemWeight(r.tasks, r.pending[j], Pull(n)) == 1
      ensures ItemAt(r, r.pending[j], u)
    {
      assert j < |w.pending|;
      assert r.pending[j] == w.pending[j];
      assert ItemWeight(w.tasks, w.pending[j], Pull(n)) == 1;
    }
  }

  /** MoveNext registered while no pull is pending is the only pull, and it
      is attached to the element it was registered on. */
  lemma ContinueWithPullPullsAt(w: World, t: TaskId, n: nat)
    requires WellFormed(w) && t < |w.tasks| && Pending(w, Pull(n)) == 0
    ensures PullsAt(ContinueWith(w, t, PullNext(n)).world, n, t)
  {
    var r := ContinueWith(w, t, PullNext(n)).world;
    NoPullsAnywhere(w, n, t);
    forall j | 0 <= j < |w.pending|
      ensures ItemWeight(r.tasks, w.pending[j], Pull(n)) == ItemWeight(w.tasks, w.pending[j], Pull(n))
    {
      assert ItemOk(w, w.pending[j]);
    }
  }

  lemma {:induction false} SubscribeAllPullsAt(w: World, ts: seq<TaskId>, a: Action, n: nat, u: TaskId)
    requires WellFormed(w) && ActionOk(w, a) && a != PullNext(n) && PullsAt(w, n, u)
    requires forall j :: 0 <= j < |ts| ==> ts[j] < |w.tasks|
    ensures PullsAt(SubscribeAll(w, ts, a), n, u)
    decreases |ts|
  {
    if |ts| > 0 {
      var r := ContinueWith(w, ts[0], a);
      ContinueWithOtherPullsAt(w, ts[0], a, n, u);
      assert forall j :: 0 <= j < |ts| - 1 ==> ts[1..][j] == ts[j + 1];
      SubscribeAllPullsAt(r.world, ts[1..], a, n, u);
    }
  }

  /** MoveNext of another enumerator moves no pull of this one. */
  lemma MoveNextOtherPullsAt(w: World, m: nat, n: nat, u: TaskId)
    requires WellFormed(w) && m < |w.enumerators| && m != n && PullsAt(w, n, u)
    ensures PullsAt(MoveNext(w, m).world, n, u)
  {
    var en := w.enumerators[m];
    if en.pulled < |en.elements| {
      match en.elements[en.pulled]
      case MoveNextThrows(e) =>
        CompletePullsAt(w, en.result, Some(e), n, u);
      case Yields(t) =>
        var w1 := w.(enumerators := w.enumerators[m := en.(pulled := en.pulled + 1)]);
        assert EnumeratorOk(w1, w1.enumerators[m]);
        assert EnumeratorOk(w, en) && ElementOk(w, en.elements[en.pulled]);
        PullsAtSameTasksAndQueue(w, w1, n, u);
        ContinueWithOtherPullsAt(w1, t, PullNext(m), n, u);
    } else {
      var w1 := w.(enumerators := w.enumerators[m := en.(disposed := true)]);
      PullsAtSameTasksAndQueue(w, w1, n, u);
      CompletePullsAt(w1, en.result, None, n, u);
    }
  }

  /** Running any action but this enumerator's MoveNext leaves its pulls
      and its position alone. */
  lemma RunActionOtherPullsAt(w: World, a: Action, n: nat, u: TaskId)
    requires WellFormed(w) && ActionOk(w, a) && n < |w.enumerators| && a != PullNext(n)
    requires PullsAt(w, n, u)
    ensures PullsAt(RunAction(w, a).world, n, u)
    ensures RunAction(w, a).world.enumerators[n] == w.enumerators[n]
  {
    match a
    case UserCode(_) =>
    case SignalWaiter =>
    case Decrement(k) =>
      var c := w.counters[k];
      var w1 := w.(counters := w.counters[k := c.(remaining := c.remaining - 1)]);
      PullsAtSameTasksAndQueue(w, w1, n, u);
      if c.remaining - 1 == 0 {
        CompletePullsAt(w1, c.result, None, n, u);
      }
    case PullNext(m) =>
      MoveNextOtherPullsAt(w, m, n, u);
  }

  /** Running this enumerator's MoveNext when no other pull is pending:
      on a task it pulls exactly one element and attaches the only pull to
      that element's task; otherwise nothing is left pending. */
  lemma RunActionPull(w: World, n: nat)
    requires WellFormed(w) && n < |w.enumerators| && Pending(w, Pull(n)) == 0
    ensures var en := w.enumerators[n];
      var r := RunAction(w, PullNext(n)).world;
      && (en.pulled < |en.elements| && en.elements[en.pulled].Yields? ==>
            && r.enumerators[n] == en.(pulled := en.pulled + 1)
            && Pending(r, Pull(n)) == 1
            && PullsAt(r, n, en.elements[en.pulled].task))
      && (!(en.pulled < |en.elements| && en.elements[en.pulled].Yields?) ==>
            && r.enumerators[n] == (if en.pulled < |en.elements| then en else en.(disposed := true))
            && Pending(r, Pull(n)) == 0)
  {
    var en := w.enumerators[n];
    assert EnumeratorOk(w, en);
    if en.pulled < |en.elements| {
      match en.elements[en.pulled]
      case MoveNextThrows(e) =>
        CompleteConserves(w, en.result, Some(e), Pull(n));
      case Yields(t) =>
        PullYields(w, n);
    } else {
      var w1 := w.(enumerators := w.enumerators[n := en.(disposed := true)]);
      assert EnumeratorOk(w1, w1.enumerators[n]);
      PendingOfSameTasksAndQueue(w, w1, Pull(n));
      CompleteConserves(w1, en.result, None, Pull(n));
    }
  }

  /** The branch of `RunActionPull` in which the next element is a task. */
  lemma PullYields(w: World, n: nat)
    requires WellFormed(w) && n < |w.enumerators| && Pending(w, Pull(n)) == 0
    requires var en := w.enumerators[n]; en.pulled < |en.elements| && en.elements[en.pulled].Yields?
    ensures var en := w.enumerators[n];
      var r := RunAction(w, PullNext(n)).world;
      && r.enumerators[n] == en.(pulled := en.pulled + 1)
      && Pending(r, Pull(n)) == 1
      && PullsAt(r, n, en.elements[en.pulled].task)
  {
    var en := w.enumerators[n];
    var t := en.elements[en.pulled].task;
    assert EnumeratorOk(w, en);
    var w1 := w.(enumerators := w.enumerators[n := en.(pulled := en.pulled + 1)]);
    assert EnumeratorOk(w1, w1.enumerators[n]);
    assert ElementOk(w, en.elements[en.pulled]);
    PendingOfSameTasksAndQueue(w, w1, Pull(n));
    InSlotsCounts(w1.tasks, t, Pull(n));
    ContinueWithCount(w1, t, PullNext(n), Pull(n));
    ContinueWithPullPullsAt(w1, t, n);
  }

  /** Taking an item off the queue moves no pull elsewhere. */
  lemma RemovePullsAt(w: World, i: nat, n: nat, u: TaskId)
    requires i < |w.pending| && PullsAt(w, n, u)
    ensures PullsAt(w.(pending := w.pending[..i] + w.pending[i + 1..]), n, u)
  {
    var w1 := w.(pending := w.pending[..i] + w.pending[i + 1..]);
    forall j | 0 <= j < |w1.pending| && ItemWeight(w1.tasks, w1.pending[j], Pull(n)) == 1
      ensures ItemAt(w1, w1.pending[j], u)
    {
      if j < i {
        assert w1.pending[j] == w.pending[j];
      } else {
        assert w1.pending[j] == w.pending[j + 1];
      }
    }
  }

  lemma RunCallbackOtherPullsAt(w: World, cb: Callback, n: nat, u: TaskId)
    requires WellFormed(w) && CallbackOk(w, cb) && n < |w.enumerators| && cb.action != PullNext(n)
    requires PullsAt(w, n, u)
    ensures PullsAt(RunCallback(w, cb).world, n, u)
    ensures RunCallback(w, cb).world.enumerators[n] == w.enumerators[n]
  {
    var s := RunAction(w, cb.action);
    RunActionOtherPullsAt(w, cb.action, n, u);
    CompletePullsAt(s.world, cb.child, s.thrown, n, u);
  }

  /** The worker running this enumerator's only pending MoveNext. */
  lemma RunCallbackPull(w: World, cb: Callback, n: nat)
    requires WellFormed(w) && CallbackOk(w, cb) && n < |w.enumerators| && cb.action == PullNext(n)
    requires Pending(w, Pull(n)) == 0
    ensures var en := w.enumerators[n];
      var r := RunCallback(w, cb).world;
      && (en.pulled < |en.elements| && en.elements[en.pulled].Yields? ==>
            && r.enumerators[n] == en.(pulled := en.pulled + 1)
            && Pending(r, Pull(n)) == 1
            && PullsAt(r, n, en.elements[en.pulled].task))
      && (!(en.pulled < |en.elements| && en.elements[en.pulled].Yields?) ==>
            && r.enumerators[n] == (if en.pulled < |en.elements| then en else en.(disposed := true))
            && Pending(r, Pull(n)) == 0)
  {
    var en := w.enumerators[n];
    var s := RunAction(w, cb.action);
    RunActionPull(w, n);
    CompleteConserves(s.world, cb.child, s.thrown, Pull(n));
    if en.pulled < |en.elements| && en.elements[en.pulled].Yields? {
      CompletePullsAt(s.world, cb.child, s.thrown, n, en.elements[en.pulled].task);
    }
  }

  /** A worker step that runs no pull of this enumerator. */
  lemma WorkOtherIter(w: World, i: nat, n: nat)
    requires WellFormed(w) && i < |w.pending| && n < |w.enumerators| && IterInv(w, n)
    requires ItemWeight(w.tasks, w.pending[i], Pull(n)) == 0
    ensures var r := Work(w, i).world;
      && n < |r.enumerators|
      && IterInv(r, n)
      && r.enumerators[n] == w.enumerators[n]
  {
    var en := w.enumerators[n];
    var w1 := w.(pending := w.pending[..i] + w.pending[i + 1..]);
    var u := if 0 < en.pulled <= |en.elements| && en.elements[en.pulled - 1].Yields?
             then en.elements[en.pulled - 1].task else 0;
    if Pending(w, Pull(n)) == 0 {
      NoPullsAnywhere(w, n, u);
    }
    WorkRuns(w, i);
    WorkCount(w, i, Pull(n));
    RemovePullsAt(w, i, n, u);
    var cb := ItemCallback(w, w.pending[i]);
    if cb.Some? {
      RunCallbackOtherPullsAt(w1, cb.value, n, u);
    }
  }

  /** A worker step that runs this enumerator's pull. */
  lemma WorkPullIter(w: World, i: nat, n: nat)
    requires WellFormed(w) && i < |w.pending| && n < |w.enumerators| && IterInv(w, n)
    requires ItemWeight(w.tasks, w.pending[i], Pull(n)) == 1
    ensures var r := Work(w, i).world;
      var en := w.enumerators[n];
      && n < |r.enumerators|
      && IterInv(r, n)
      && r.enumerators[n].elements == en.elements
      && 0 < en.pulled
      && en.elements[en.pulled - 1].Yields?
      && w.tasks[en.elements[en.pulled - 1].task].completed
      && en.pulled <= r.enumerators[n].pulled <= en.pulled + 1
  {
    var en := w.enumerators[n];
    var item := w.pending[i];
    var w1 := w.(pending := w.pending[..i] + w.pending[i + 1..]);
    QueuedCounts(w.tasks, w.pending, i, Pull(n));
    QueuedRemove(w.tasks, w.pending, i, Pull(n));
    assert Pending(w, Pull(n)) == 1;
    assert Pending(w1, Pull(n)) == 0;
    assert ItemAt(w, item, en.elements[en.pulled - 1].task);
    assert ItemOk(w, item);
    WorkRuns(w, i);
    WorkCount(w, i, Pull(n));
    var cb := ItemCallback(w, item).value;
    RunCallbackPull(w1, cb, n);
  }

  /** The invariant of one enumerator survives a worker step.  When the step
      moves the enumerator on, it ran the pull attached to the last element
      pulled, whose task had completed, and it pulled exactly one element. */
  lemma WorkIter(w: World, i: nat, n: nat)
    requires WellFormed(w) && i < |w.pending| && n < |w.enumerators| && IterInv(w, n)
    ensures var r := Work(w, i).world;
      var en := w.enumerators[n];
      && n < |r.enumerators|
      && IterInv(r, n)
      && r.enumerators[n].elements == en.elements
      && (r.enumerators[n].pulled == en.pulled ||
          (&& r.enumerators[n].pulled == en.pulled + 1
           && ItemWeight(w.tasks, w.pending[i], Pull(n)) == 1
           && 0 < en.pulled
           && en.elements[en.pulled - 1].Yields?
           && w.tasks[en.elements[en.pulled - 1].task].completed))
  {
    if ItemWeight(w.tasks, w.pending[i], Pull(n)) == 0 {
      WorkOtherIter(w, i, n);
    } else {
      WorkPullIter(w, i, n);
    }
  }

  /** A step made by user code moves no pull and leaves every existing
      enumerator alone. */
  lemma UserStepPullsAt(w: World, op: Op, n: nat, u: TaskId)
    requires WellFormed(w) && Enabled(w, op) && !op.WorkOp? && n < |w.enumerators|
    requires PullsAt(w, n, u)
    ensures PullsAt(Apply(w, op), n, u)
    ensures Apply(w, op).enumerators[n] == w.enumerators[n]
  {
    match op
    case NewTaskOp =>
      NewTaskPullsAt(w, n, u);
    case CompleteOp(t, e) =>
      CompletePullsAt(w, t, e, n, u);
    case ContinueWithOp(t, e) =>
      ContinueWithOtherPullsAt(w, t, UserCode(e), n, u);
    case RunOp(e) =>
      NewTaskPullsAt(w, n, u);
    case WaitOp(t) =>
      if !w.tasks[t].completed {
        ContinueWithOtherPullsAt(w, t, SignalWaiter, n, u);
      }
    case WhenAllOp(ts) =>
      WhenAllPullsAt(w, ts, n, u);
    case IterateOp(es) =>
      IteratePullsAt(w, es, n, u);
  }

  lemma WhenAllPullsAt(w: World, ts: seq<TaskId>, n: nat, u: TaskId)
    requires WellFormed(w) && (forall j :: 0 <= j < |ts| ==> ts[j] < |w.tasks|) && PullsAt(w, n, u)
    ensures PullsAt(WhenAll(w, ts).world, n, u)
  {
    var nt := NewTask(w);
    NewTaskPullsAt(w, n, u);
    if |ts| == 0 {
      CompletePullsAt(nt.world, nt.task, None, n, u);
    } else {
      var k := |w.counters|;
      var w1 := nt.world.(counters := nt.world.counters + [Counter(|ts|, nt.task)]);
      PullsAtSameTasksAndQueue(nt.world, w1, n, u);
      assert WellFormed(w1);
      SubscribeAllPullsAt(w1, ts, Decrement(k), n, u);
    }
  }

  lemma IteratePullsAt(w: World, es: seq<Element>, n: nat, u: TaskId)
    requires WellFormed(w) && (forall j :: 0 <= j < |es| ==> ElementOk(w, es[j]))
    requires n < |w.enumerators| && PullsAt(w, n, u)
    ensures PullsAt(Iterate(w, es).world, n, u)
  {
    var nt := NewTask(w);
    NewTaskPullsAt(w, n, u);
    var m := |w.enumerators|;
    var w1 := nt.world.(enumerators := nt.world.enumerators + [Enumerator(es, 0, false, nt.task)]);
    assert forall j :: 0 <= j < |es| ==> ElementOk(w1, es[j]) by {
      forall j | 0 <= j < |es| ensures ElementOk(w1, es[j]) {
        assert ElementOk(w, es[j]);
      }
    }
    assert EnumeratorOk(w1, w1.enumerators[m]);
    PullsAtSameTasksAndQueue(nt.world, w1, n, u);
    MoveNextOtherPullsAt(w1, m, n, u);
  }

  /** The invariant of one enumerator survives every step; only a worker
      step moves the enumerator on, as `WorkIter` describes. */
  lemma ApplyIter(w: World, op: Op, n: nat)
    requires WellFormed(w) && Enabled(w, op) && n < |w.enumerators| && IterInv(w, n)
    ensures var r := Apply(w, op);
      && n < |r.enumerators|
      && IterInv(r, n)
      && r.enumerators[n].elements == w.enumerators[n].elements
      && w.enumerators[n].pulled <= r.enumerators[n].pulled
      && (!op.WorkOp? ==> r.enumerators[n] == w.enumerators[n])
  {
    if op.WorkOp? {
      WorkIter(w, op.index, n);
    } else {
      UserStepIter(w, op, n);
    }
  }

  /** A step made by user code keeps the invariant and the enumerator. */
  lemma UserStepIter(w: World, op: Op, n: nat)
    requires WellFormed(w) && Enabled(w, op) && !op.WorkOp? && n < |w.enumerators| && IterInv(w, n)
    ensures var r := Apply(w, op);
      && n < |r.enumerators|
      && IterInv(r, n)
      && r.enumerators[n] == w.enumerators[n]
  {
    var en := w.enumerators[n];
    var u := if 0 < en.pulled <= |en.elements| && en.elements[en.pulled - 1].Yields?
             then en.elements[en.pulled - 1].task else 0;
    if Pending(w, Pull(n)) == 0 {
      NoPullsAnywhere(w, n, u);
    }
    ApplyCount(w, op, Pull(n));
    UserStepPullsAt(w, op, n, u);
  }

  /** What the creation of an enumerator establishes. */
  lemma IterateEstablishes(w: World, es: seq<Element>)
    requires WellFormed(w) && forall j :: 0 <= j < |es| ==> ElementOk(w, es[j])
    ensures IterInv(Iterate(w, es).world, |w.enumerators|)
    ensures !(|es| > 0 && es[0].Yields?) ==> Pending(Iterate(w, es).world, Pull(|w.enumerators|)) == 0
    ensures |es| > 0 && es[0].Yields? ==> Pending(Iterate(w, es).world, Pull(|w.enumerators|)) == 1
  {
    var n := |w.enumerators|;
    var nt := NewTask(w);
    NewTaskCount(w, Pull(n));
    var w1 := nt.world.(enumerators := nt.world.enumerators + [Enumerator(es, 0, false, nt.task)]);
    assert forall j :: 0 <= j < |es| ==> ElementOk(w1, es[j]) by {
      forall j | 0 <= j < |es| ensures ElementOk(w1, es[j]) {
        assert ElementOk(w, es[j]);
      }
    }
    assert EnumeratorOk(w1, w1.enumerators[n]);
    forall t | 0 <= t < |w.tasks| && w.tasks[t].continuation.Some?
      ensures ActionOk(w, w.tasks[t].continuation.value.action)
    {
      assert SlotOk(w, w.tasks[t]);
    }
    forall i | 0 <= i < |w.pending| && w.pending[i].Invoke?
      ensures ActionOk(w, w.pending[i].callback.action)
    {
      assert ItemOk(w, w.pending[i]);
    }
    assert Unmentioned(w1, Pull(n));
    UnmentionedNothingPending(w1, Pull(n));
    RunActionPull(w1, n);
    RunActionCount(w1, PullNext(n), Pull(n));
  }

  /** With nothing pending for an enumerator, no step moves it or creates
      a pull for it. */
  lemma FrozenStep(w: World, op: Op, n: nat)
    requires WellFormed(w) && Enabled(w, op) && n < |w.enumerators| && Pending(w, Pull(n)) == 0
    ensures var r := Apply(w, op);
      && n < |r.enumerators|
      && Pending(r, Pull(n)) == 0
      && r.enumerators[n] == w.enumerators[n]
  {
    var en := w.enumerators[n];
    NoPullsAnywhere(w, n, 0);
    if op.WorkOp? {
      QueuedCounts(w.tasks, w.pending, op.index, Pull(n));
      WorkOtherIter(w, op.index, n);
      WorkCount(w, op.index, Pull(n));
    } else {
      ApplyCount(w, op, Pull(n));
      UserStepPullsAt(w, op, n, 0);
    }
  }

  /** One step of any kind, for one enumerator: it moves on by at most one
      element, and only once the task of the element pulled last has
      completed. */
  lemma IterStep(w: World, op: Op, n: nat)
    requires WellFormed(w) && Enabled(w, op) && n < |w.enumerators| && IterInv(w, n)
    ensures var r := Apply(w, op);
      var en := w.enumerators[n];
      && n < |r.enumerators|
      && IterInv(r, n)
      && r.enumerators[n].elements == en.elements
      && en.pulled <= r.enumerators[n].pulled <= en.pulled + 1
      && (r.enumerators[n].pulled == en.pulled + 1 ==>
            && 0 < en.pulled
            && en.elements[en.pulled - 1].Yields?
            && r.tasks[en.elements[en.pulled - 1].task].completed)
      && (Pending(w, Pull(n)) == 0 ==> Pending(r, Pull(n)) == 0 && r.enumerators[n] == en)
  {
    ApplyIter(w, op, n);
    if op.WorkOp? {
      WorkIter(w, op.index, n);
    }
    if Pending(w, Pull(n)) == 0 {
      FrozenStep(w, op, n);
    }
  }

  /** Along any interleaving the invariant holds, the enumerator only moves
      forward, and, once nothing is pending for it, it never moves again:
      after MoveNext has thrown or run out, no element is pulled. */
  lemma {:induction false} IterAlongTrace(w: World, ops: seq<Op>, n: nat)
    requires WellFormed(w) && Valid(w, ops) && n < |w.enumerators| && IterInv(w, n)
    ensures var r := Replay(w, ops);
      var en := w.enumerators[n];
      && n < |r.enumerators|
      && IterInv(r, n)
      && r.enumerators[n].elements == en.elements
      && en.pulled <= r.enumerators[n].pulled <= |en.elements|
      && (Pending(w, Pull(n)) == 0 ==> r.enumerators[n] == en)
    decreases |ops|
  {
    if |ops| > 0 {
      var w1 := Apply(w, ops[0]);
      IterStep(w, ops[0], n);
      IterAlongTrace(w1, ops[1..], n);
      var r := Replay(w1, ops[1..]);
      assert r == Replay(w, ops);
    } else {
      assert EnumeratorOk(w, w.enumerators[n]);
    }
  }

  /** Prepending one step to a run whose pulls were in order. */
  lemma ExtendOrder(es: seq<Element>, p: nat, p1: nat, q: nat, w1: World, r: World)
    requires Evolves(w1, r) && q <= |es| && p <= p1 <= p + 1
    requires p1 == p + 1 ==>
      && 0 < p <= |es|
      && es[p - 1].Yields?
      && es[p - 1].task < |w1.tasks|
      && w1.tasks[es[p - 1].task].completed
    requires forall k :: 0 <= k && p1 <= k + 1 < q ==>
      es[k].Yields? && es[k].task < |r.tasks| && r.tasks[es[k].task].completed
    ensures forall k :: 0 <= k && p <= k + 1 < q ==>
      es[k].Yields? && es[k].task < |r.tasks| && r.tasks[es[k].task].completed
  {
    forall k | 0 <= k && p <= k + 1 < q
      ensures es[k].Yields? && es[k].task < |r.tasks| && r.tasks[es[k].task].completed
    {
      if k + 1 < p1 {
        assert k + 1 == p;
        assert w1.tasks[es[k].task].completed;
      }
    }
  }

  /** Along any interleaving, element k + 1 is pulled only once the task of
      element k has completed. */
  lemma {:induction false} PulledAfterPredecessor(w: World, ops: seq<Op>, n: nat)
    requires WellFormed(w) && Valid(w, ops) && n < |w.enumerators| && IterInv(w, n)
    ensures var r := Replay(w, ops);
      var en := w.enumerators[n];
      && n < |r.enumerators|
      && r.enumerators[n].elements == en.elements
      && r.enumerators[n].pulled <= |en.elements|
      && (forall k :: 0 <= k && en.pulled <= k + 1 < r.enumerators[n].pulled ==>
            && en.elements[k].Yields?
            && en.elements[k].task < |r.tasks|
            && r.tasks[en.elements[k].task].completed)
    decreases |ops|
  {
    if |ops| > 0 {
      var w1 := Apply(w, ops[0]);
      IterStep(w, ops[0], n);
      PulledAfterPredecessor(w1, ops[1..], n);
      var r := Replay(w1, ops[1..]);
      assert r == Replay(w, ops);
      var en := w.enumerators[n];
      ExtendOrder(en.elements, en.pulled, w1.enumerators[n].pulled, r.enumerators[n].pulled, w1, r);
    } else {
      assert EnumeratorOk(w, w.enumerators[n]);
    }
  }

  /** Iterate, then any interleaving: the elements are pulled in order, each
      after the task of the one before it has completed; a sequence that is
      empty or whose first MoveNext throws is never pulled from at all, and
      its result task keeps the outcome Iterate gave it. */
  lemma IteratePullsInOrder(w: World, es: seq<Element>, ops: seq<Op>)
    requires WellFormed(w) && forall j :: 0 <= j < |es| ==> ElementOk(w, es[j])
    requires Valid(Iterate(w, es).world, ops)
    ensures var r := Iterate(w, es);
      var n := |w.enumerators|;
      var final := Replay(r.world, ops);
      && n < |final.enumerators|
      && final.enumerators[n].elements == es
      && final.enumerators[n].pulled <= |es|
      && (forall k :: 0 <= k && k + 1 < final.enumerators[n].pulled ==>
            && es[k].Yields?
            && es[k].task < |final.tasks|
            && final.tasks[es[k].task].completed)
      && (!(|es| > 0 && es[0].Yields?) ==>
            && final.enumerators[n].pulled == 0
            && final.tasks[r.task] == r.world.tasks[r.task])
  {
    var r := Iterate(w, es);
    var n := |w.enumerators|;
    IterateEstablishes(w, es);
    IterAlongTrace(r.world, ops, n);
    PulledAfterPredecessor(r.world, ops, n);
    var final := Replay(r.world, ops);
    if !(|es| > 0 && es[0].Yields?) {
      assert r.world.tasks[r.task].completed;
    }
  }
}

=== FILE: iterate_result.dfy ===
/** Iterate's result task belongs to its enumerator: no wrapper completes
    it, no counter and no other enumerator does.  So, as long as user code
    does not complete it by hand, it is completed only by the MoveNext that
    throws or finds the end, and never while a MoveNext of its enumerator
    is still on its way to running.  A MoveNext that user code displaces
    from an element's slot is never run, and then the result never
    completes: nothing here promises that it does. */
module IterateResult {
  import opened AsyncTypes
  import opened TaskCore
  import opened Execution
  import opened Delivery
  import opened System
  import opened IterateProofs
  import opened Ownership

  /** The outcome a completed result has, given where its enumerator
      stopped: at a throwing MoveNext, failed with its exception and not
      disposed; at the end, successful and disposed. */
  predicate SettledAt(en: Enumerator, x: Task) {
    if en.pulled < |en.elements| then
      && en.elements[en.pulled].MoveNextThrows?
      && x.exception == Some(en.elements[en.pulled].error)
      && !en.disposed
    else
      x.exception == None && en.disposed
  }

  /** The relation between enumerator `n` and its result task. */
  ghost predicate IterResultInv(w: World, n: nat)
    requires n < |w.enumerators|
  {
    var en := w.enumerators[n];
    && OwnedBy(w, EnumeratorOf(n), en.result)
    && IterInv(w, n)
    && (w.tasks[en.result].completed ==> Pending(w, Pull(n)) == 0 && SettledAt(en, w.tasks[en.result]))
    && (!w.tasks[en.result].completed ==> !en.disposed)
  }

  /** A worker running this enumerator's only pending MoveNext: it runs
      the pull, and afterwards either the next element's pull is pending,
      or nothing is and the enumerator stopped where MoveNext threw or
      found the end. */
  lemma WorkPullMoves(w: World, i: nat, n: nat)
    requires WellFormed(w) && i < |w.pending| && n < |w.enumerators| && IterInv(w, n)
    requires ItemWeight(w.tasks, w.pending[i], Pull(n)) == 1
    ensures var en := w.enumerators[n];
      var r := Work(w, i).world;
      var cb := ItemCallback(w, w.pending[i]);
      && cb.Some? && cb.value.action == PullNext(n)
      && n < |r.enumerators|
      && (NextYields(en) ==> r.enumerators[n] == en.(pulled := en.pulled + 1) && Pending(r, Pull(n)) == 1)
      && (!NextYields(en) ==>
            && r.enumerators[n] == (if en.pulled < |en.elements| then en else en.(disposed := true))
            && Pending(r, Pull(n)) == 0)
  {
    var w1 := w.(pending := w.pending[..i] + w.pending[i + 1..]);
    QueuedCounts(w.tasks, w.pending, i, Pull(n));
    QueuedRemove(w.tasks, w.pending, i, Pull(n));
    assert Pending(w1, Pull(n)) == 0;
    WorkRuns(w, i);
    RunCallbackPull(w1, ItemCallback(w, w.pending[i]).value, n);
  }

  /** A step that runs no pull of this enumerator leaves it alone. */
  lemma OtherStepKeeps(w: World, op: Op, n: nat)
    requires WellFormed(w) && Enabled(w, op) && n < |w.enumerators| && IterInv(w, n)
    requires !(op.WorkOp? && ItemWeight(w.tasks, w.pending[op.index], Pull(n)) == 1)
    ensures n < |Apply(w, op).enumerators| && Apply(w, op).enumerators[n] == w.enumerators[n]
  {
    if op.WorkOp? {
      WorkOtherIter(w, op.index, n);
    } else {
      ApplyIter(w, op, n);
    }
  }

  /** A settled result stays settled: nothing is pending, so nothing
      moves the enumerator, and the completed result is frozen. */
  lemma SettledStep(w: World, op: Op, n: nat)
    requires WellFormed(w) && Enabled(w, op) && n < |w.enumerators| && IterResultInv(w, n)
    requires w.tasks[w.enumerators[n].result].completed
    requires !CompletesByHand(op, w.enumerators[n].result)
    ensures n < |Apply(w, op).enumerators| && IterResultInv(Apply(w, op), n)
  {
    var t := w.enumerators[n].result;
    FrozenStep(w, op, n);
    ApplyOwned(w, op, EnumeratorOf(n), t);
  }

  /** The worker running the pending pull of an unsettled result: it
      either leaves the result alone with the next pull pending, or
      settles it where the enumerator stopped. */
  lemma PullStep(w: World, i: nat, n: nat)
    requires WellFormed(w) && i < |w.pending| && n < |w.enumerators| && IterResultInv(w, n)
    requires !w.tasks[w.enumerators[n].result].completed
    requires ItemWeight(w.tasks, w.pending[i], Pull(n)) == 1
    ensures n < |Work(w, i).world.enumerators| && IterResultInv(Work(w, i).world, n)
  {
    var t := w.enumerators[n].result;
    WorkPullIter(w, i, n);
    WorkPullMoves(w, i, n);
    ApplyOwned(w, WorkOp(i), EnumeratorOf(n), t);
  }

  /** Any other step on an unsettled result leaves both it and the
      enumerator alone. */
  lemma OtherStep(w: World, op: Op, n: nat)
    requires WellFormed(w) && Enabled(w, op) && n < |w.enumerators| && IterResultInv(w, n)
    requires !w.tasks[w.enumerators[n].result].completed
    requires !CompletesByHand(op, w.enumerators[n].result)
    requires !(op.WorkOp? && ItemWeight(w.tasks, w.pending[op.index], Pull(n)) == 1)
    ensures n < |Apply(w, op).enumerators| && IterResultInv(Apply(w, op), n)
  {
    var t := w.enumerators[n].result;
    ApplyIter(w, op, n);
    OtherStepKeeps(w, op, n);
    ApplyOwned(w, op, EnumeratorOf(n), t);
  }

  lemma IterResultStep(w: World, op: Op, n: nat)
    requires WellFormed(w) && Enabled(w, op) && n < |w.enumerators| && IterResultInv(w, n)
    requires !CompletesByHand(op, w.enumerators[n].result)
    ensures n < |Apply(w, op).enumerators| && IterResultInv(Apply(w, op), n)
    ensures Apply(w, op).enumerators[n].result == w.enumerators[n].result
  {
    var t := w.enumerators[n].result;
    if w.tasks[t].completed {
      SettledStep(w, op, n);
    } else if op.WorkOp? && ItemWeight(w.tasks, w.pending[op.index], Pull(n)) == 1 {
      PullStep(w, op.index, n);
    } else {
      OtherStep(w, op, n);
    }
    ApplyOwned(w, op, EnumeratorOf(n), t);
  }

  lemma {:induction false} IterResultAlongTrace(w: World, ops: seq<Op>, n: nat)
    requires WellFormed(w) && Valid(w, ops) && n < |w.enumerators| && IterResultInv(w, n)
    requires forall j :: 0 <= j < |ops| ==> !CompletesByHand(ops[j], w.enumerators[n].result)
    ensures n < |Replay(w, ops).enumerators| && IterResultInv(Replay(w, ops), n)
    ensures Replay(w, ops).enumerators[n].result == w.enumerators[n].result
    decreases |ops|
  {
    if |ops| > 0 {
      IterResultStep(w, ops[0], n);
      assert forall j :: 0 <= j < |ops| - 1 ==> ops[1..][j] == ops[j + 1];
      IterResultAlongTrace(Apply(w, ops[0]), ops[1..], n);
    }
  }

  /** What Iterate establishes for its own enumerator. */
  lemma IterateEstablishesResult(w: World, es: seq<Element>)
    requires WellFormed(w) && forall j :: 0 <= j < |es| ==> ElementOk(w, es[j])
    ensures var r := Iterate(w, es);
      && |w.enumerators| < |r.world.enumerators|
      && IterResultInv(r.world, |w.enumerators|)
  {
    IterateCreatesOwned(w, es);
    IterateEstablishes(w, es);
  }

  /** Iterate, then any interleaving in which user code does not complete
      the result by hand: while a MoveNext is on its way to running the
      result stays incomplete; once it is completed, it succeeded exactly
      when every element was pulled, and then the enumerator was disposed;
      it failed exactly when a MoveNext threw, with that exception. */
  lemma IterateSettles(w: World, es: seq<Element>, ops: seq<Op>)
    requires WellFormed(w) && forall j :: 0 <= j < |es| ==> ElementOk(w, es[j])
    requires Valid(Iterate(w, es).world, ops)
    requires forall j :: 0 <= j < |ops| ==> !CompletesByHand(ops[j], Iterate(w, es).task)
    ensures var r := Iterate(w, es);
      var n := |w.enumerators|;
      var final := Replay(r.world, ops);
      var res := final.tasks[r.task];
      var en := final.enumerators[n];
      && n < |final.enumerators|
      && en.elements == es
      && (Pending(final, Pull(n)) > 0 ==> !res.completed)
      && (res.completed ==>
            && (res.exception == None <==> en.pulled == |es|)
            && (res.exception == None ==> en.disposed)
            && (res.exception.Some? <==> en.pulled < |es| && es[en.pulled].MoveNextThrows?)
            && (res.exception.Some? ==> res.exception.value == es[en.pulled].error && !en.disposed))
  {
    var r := Iterate(w, es);
    var n := |w.enumerators|;
    IterateEstablishesResult(w, es);
    IterResultAlongTrace(r.world, ops, n);
    IterAlongTrace(r.world, ops, n);
  }
}

=== FILE: ownership.dfy ===
/** Result tasks belong to whoever created them.  WhenAll's result is
    completed by its counter's last decrement, Iterate's by the MoveNext
    that throws or runs out; no wrapper has either as its child, and no
    other counter or enumerator names it.  So, unless user code completes
    it by hand, a result task changes only when its owner settles it. */
module Ownership {
  import opened AsyncTypes
  import opened TaskCore
  import opened Execution
  import opened System

  /** The combinator instance a result task belongs to. */
  datatype Owner = CounterOf(counter: nat) | EnumeratorOf(enumerator: nat)

  /** No callback, queued or in a slot, has `t` as its child. */
  ghost predicate NoWrapperCompletes(w: World, t: TaskId) {
    && (forall v :: 0 <= v < |w.tasks| && w.tasks[v].continuation.Some? ==> w.tasks[v].continuation.value.child != t)
    && (forall j :: 0 <= j < |w.pending| && w.pending[j].Invoke? ==> w.pending[j].callback.child != t)
  }

  /** Task `t` is the result of `o` and of nothing else. */
  ghost predicate OwnedBy(w: World, o: Owner, t: TaskId) {
    && t < |w.tasks|
    && NoWrapperCompletes(w, t)
    && (match o
        case CounterOf(k) => k < |w.counters| && w.counters[k].result == t
        case EnumeratorOf(n) => n < |w.enumerators| && w.enumerators[n].result == t)
    && (forall j :: 0 <= j < |w.counters| && o != CounterOf(j) ==> w.counters[j].result != t)
    && (forall m :: 0 <= m < |w.enumerators| && o != EnumeratorOf(m) ==> w.enumerators[m].result != t)
  }

  /** Two states of one task with the same outcome so far. */
  predicate SameOutcome(x: Task, y: Task) {
    x.completed == y.completed && x.exception == y.exception
  }

  /** Whether the enumerator's next MoveNext yields a task. */
  predicate NextYields(en: Enumerator) {
    en.pulled < |en.elements| && en.elements[en.pulled].Yields?
  }

  /** Whether running `a` is the call that settles `o`'s result: the
      decrement that takes the counter from one to zero, or the MoveNext
      that throws or finds the end. */
  predicate Fires(w: World, a: Action, o: Owner) {
    match o
    case CounterOf(k) => a == Decrement(k) && k < |w.counters| && w.counters[k].remaining == 1
    case EnumeratorOf(n) => a == PullNext(n) && n < |w.enumerators| && !NextYields(w.enumerators[n])
  }

  /** The outcome `o` gives its result when it fires: success for a
      counter; for an enumerator, the exception its MoveNext throws, or
      success at the end. */
  function Settled(w: World, o: Owner): Option<Err> {
    match o
    case CounterOf(_) => None
    case EnumeratorOf(n) =>
      if n < |w.enumerators| && w.enumerators[n].pulled < |w.enumerators[n].elements|
         && w.enumerators[n].elements[w.enumerators[n].pulled].MoveNextThrows?
      then Some(w.enumerators[n].elements[w.enumerators[n].pulled].error)
      else None
  }

  /** Whether a worker step runs the call that settles `o`'s result. */
  predicate WorkFires(w: World, i: nat, o: Owner)
    requires i < |w.pending|
  {
    var cb := ItemCallback(w, w.pending[i]);
    cb.Some? && Fires(w, cb.value.action, o)
  }

  /** Whether `op` is user code completing `t` by hand. */
  predicate CompletesByHand(op: Op, t: TaskId) {
    op.CompleteOp? && op.task == t
  }

  lemma CompleteOwned(w: World, u: TaskId, e: Option<Err>, o: Owner, t: TaskId)
    requires u < |w.tasks| && OwnedBy(w, o, t)
    ensures var r := Complete(w, u, e).world;
      OwnedBy(r, o, t) && (u != t ==> r.tasks[t] == w.tasks[t])
  {
    var r := Complete(w, u, e).world;
    if !w.tasks[u].completed {
      forall j | 0 <= j < |r.pending| && r.pending[j].Invoke?
        ensures r.pending[j].callback.child != t
      {
        assert j < |w.pending| && r.pending[j] == w.pending[j];
      }
    }
  }

  lemma NewTaskOwned(w: World, o: Owner, t: TaskId)
    requires OwnedBy(w, o, t)
    ensures OwnedBy(NewTask(w).world, o, t)
  {
  }

  lemma ContinueWithOwned(w: World, u: TaskId, a: Action, o: Owner, t: TaskId)
    requires u < |w.tasks| && OwnedBy(w, o, t)
    ensures var r := ContinueWith(w, u, a).world;
      OwnedBy(r, o, t) && SameOutcome(r.tasks[t], w.tasks[t])
  {
    var r := ContinueWith(w, u, a).world;
    forall j | 0 <= j < |r.pending| && r.pending[j].Invoke?
      ensures r.pending[j].callback.child != t
    {
      if j < |w.pending| {
        assert r.pending[j] == w.pending[j];
      }
    }
  }

  lemma {:induction false} SubscribeAllOwned(w: World, ts: seq<TaskId>, a: Action, o: Owner, t: TaskId)
    requires forall j :: 0 <= j < |ts| ==> ts[j] < |w.tasks|
    requires OwnedBy(w, o, t)
    ensures var r := SubscribeAll(w, ts, a);
      OwnedBy(r, o, t) && SameOutcome(r.tasks[t], w.tasks[t])
    decreases |ts|
  {
    if |ts| > 0 {
      var c := ContinueWith(w, ts[0], a);
      ContinueWithOwned(w, ts[0], a, o, t);
      assert forall j :: 0 <= j < |ts| - 1 ==> ts[1..][j] == ts[j + 1];
      SubscribeAllOwned(c.world, ts[1..], a, o, t);
    }
  }

  /** The outcome part shared by every lemma below: firing completes the
      result with the owner's outcome, anything else leaves it alone. */
  ghost predicate Moves(w: World, r: World, fires: bool, o: Owner, t: TaskId)
    requires t < |w.tasks| && t < |r.tasks|
  {
    && (fires ==> r.tasks[t].completed && (!w.tasks[t].completed ==> r.tasks[t].exception == Settled(w, o)))
    && (!fires ==> SameOutcome(r.tasks[t], w.tasks[t]))
  }

  lemma MoveNextOwned(w: World, m: nat, o: Owner, t: TaskId)
    requires WellFormed(w) && m < |w.enumerators| && OwnedBy(w, o, t)
    ensures var r := MoveNext(w, m).world;
      OwnedBy(r, o, t) && Moves(w, r, Fires(w, PullNext(m), o), o, t)
  {
    var en := w.enumerators[m];
    assert EnumeratorOk(w, en);
    if en.pulled < |en.elements| {
      match en.elements[en.pulled]
      case MoveNextThrows(e) =>
        CompleteOwned(w, en.result, Some(e), o, t);
      case Yields(u) =>
        var w1 := w.(enumerators := w.enumerators[m := en.(pulled := en.pulled + 1)]);
        assert ElementOk(w, en.elements[en.pulled]);
        assert OwnedBy(w1, o, t);
        ContinueWithOwned(w1, u, PullNext(m), o, t);
    } else {
      var w1 := w.(enumerators := w.enumerators[m := en.(disposed := true)]);
      assert OwnedBy(w1, o, t);
      CompleteOwned(w1, en.result, None, o, t);
    }
  }

  lemma CountDownOwned(w: World, j: nat, o: Owner, t: TaskId)
    requires WellFormed(w) && j < |w.counters| && OwnedBy(w, o, t)
    ensures var r := CountDown(w, j).world;
      OwnedBy(r, o, t) && Moves(w, r, Fires(w, Decrement(j), o), o, t)
  {
    var c := w.counters[j];
    var w1 := w.(counters := w.counters[j := c.(remaining := c.remaining - 1)]);
    assert OwnedBy(w1, o, t);
    if c.remaining - 1 == 0 {
      CompleteOwned(w1, c.result, None, o, t);
    }
  }

  lemma RunActionOwned(w: World, a: Action, o: Owner, t: TaskId)
    requires WellFormed(w) && ActionOk(w, a) && OwnedBy(w, o, t)
    ensures var r := RunAction(w, a).world;
      OwnedBy(r, o, t) && Moves(w, r, Fires(w, a, o), o, t)
  {
    match a
    case UserCode(_) =>
    case SignalWaiter =>
    case Decrement(j) =>
      CountDownOwned(w, j, o, t);
    case PullNext(m) =>
      MoveNextOwned(w, m, o, t);
  }

  lemma RunCallbackOwned(w: World, cb: Callback, o: Owner, t: TaskId)
    requires WellFormed(w) && CallbackOk(w, cb) && cb.child != t && OwnedBy(w, o, t)
    ensures var r := RunCallback(w, cb).world;
      OwnedBy(r, o, t) && Moves(w, r, Fires(w, cb.action, o), o, t)
  {
    var s := RunAction(w, cb.action);
    RunActionOwned(w, cb.action, o, t);
    CompleteOwned(s.world, cb.child, s.thrown, o, t);
  }

  lemma WorkOwned(w: World, i: nat, o: Owner, t: TaskId)
    requires WellFormed(w) && i < |w.pending| && OwnedBy(w, o, t)
    ensures var r := Work(w, i).world;
      OwnedBy(r, o, t) && Moves(w, r, WorkFires(w, i, o), o, t)
  {
    var w1 := w.(pending := w.pending[..i] + w.pending[i + 1..]);
    RemovePreservesWellFormed(w, i);
    assert OwnedBy(w1, o, t) by {
      forall j | 0 <= j < |w1.pending| && w1.pending[j].Invoke?
        ensures w1.pending[j].callback.child != t
      {
        if j < i {
          assert w1.pending[j] == w.pending[j];
        } else {
          assert w1.pending[j] == w.pending[j + 1];
        }
      }
    }
    match w.pending[i]
    case Invoke(cb) =>
      RunCallbackOwned(w1, cb, o, t);
    case FireContinuation(u) =>
      if w.tasks[u].continuation.Some? {
        assert SlotOk(w, w.tasks[u]);
        RunCallbackOwned(w1, w.tasks[u].continuation.value, o, t);
      }
  }

  lemma WhenAllOwned(w: World, ts: seq<TaskId>, o: Owner, t: TaskId)
    requires WellFormed(w) && (forall j :: 0 <= j < |ts| ==> ts[j] < |w.tasks|)
    requires OwnedBy(w, o, t)
    ensures var r := WhenAll(w, ts).world;
      OwnedBy(r, o, t) && SameOutcome(r.tasks[t], w.tasks[t])
  {
    var n := NewTask(w);
    NewTaskOwned(w, o, t);
    if |ts| == 0 {
      CompleteOwned(n.world, n.task, None, o, t);
    } else {
      var w1 := n.world.(counters := n.world.counters + [Counter(|ts|, n.task)]);
      assert OwnedBy(w1, o, t);
      SubscribeAllOwned(w1, ts, Decrement(|w.counters|), o, t);
    }
  }

  /** The first half of Iterate: a fresh result and a fresh enumerator,
      before the first MoveNext. */
  lemma IterateStartsValid(w: World, es: seq<Element>)
    requires WellFormed(w) && (forall j :: 0 <= j < |es| ==> ElementOk(w, es[j]))
    ensures var n := NewTask(w);
      var w1 := n.world.(enumerators := n.world.enumerators + [Enumerator(es, 0, false, n.task)]);
      WellFormed(w1)
  {
    var n := NewTask(w);
    var m := |w.enumerators|;
    var w1 := n.world.(enumerators := n.world.enumerators + [Enumerator(es, 0, false, n.task)]);
    assert forall j :: 0 <= j < |es| ==> ElementOk(w1, es[j]) by {
      forall j | 0 <= j < |es| ensures ElementOk(w1, es[j]) {
        assert ElementOk(w, es[j]);
      }
    }
    assert EnumeratorOk(w1, w1.enumerators[m]);
  }

  lemma IterateOwned(w: World, es: seq<Element>, o: Owner, t: TaskId)
    requires WellFormed(w) && (forall j :: 0 <= j < |es| ==> ElementOk(w, es[j]))
    requires OwnedBy(w, o, t)
    ensures var r := Iterate(w, es).world;
      OwnedBy(r, o, t) && SameOutcome(r.tasks[t], w.tasks[t])
  {
    var n := NewTask(w);
    NewTaskOwned(w, o, t);
    var m := |w.enumerators|;
    var w1 := n.world.(enumerators := n.world.enumerators + [Enumerator(es, 0, false, n.task)]);
    IterateStartsValid(w, es);
    assert OwnedBy(w1, o, t);
    MoveNextOwned(w1, m, o, t);
  }

  /** Every step but a hand-made Complete of `t` leaves `t`'s outcome alone,
      except the worker running the call that settles `t`'s owner, which
      completes it with the owner's outcome. */
  lemma ApplyOwned(w: World, op: Op, o: Owner, t: TaskId)
    requires WellFormed(w) && Enabled(w, op) && OwnedBy(w, o, t)
    requires !CompletesByHand(op, t)
    ensures var r := Apply(w, op);
      OwnedBy(r, o, t) && Moves(w, r, op.WorkOp? && WorkFires(w, op.index, o), o, t)
  {
    match op
    case NewTaskOp =>
      NewTaskOwned(w, o, t);
    case CompleteOp(u, e) =>
      CompleteOwned(w, u, e, o, t);
    case ContinueWithOp(u, e) =>
      ContinueWithOwned(w, u, UserCode(e), o, t);
    case RunOp(e) =>
      var r := Run(w, UserCode(e)).world;
      forall j | 0 <= j < |r.pending| && r.pending[j].Invoke?
        ensures r.pending[j].callback.child != t
      {
        if j < |w.pending| {
          assert r.pending[j] == w.pending[j];
        }
      }
    case WaitOp(u) =>
      if !w.tasks[u].completed {
        ContinueWithOwned(w, u, SignalWaiter, o, t);
      }
    case WhenAllOp(ts) =>
      WhenAllOwned(w, ts, o, t);
    case IterateOp(es) =>
      IterateOwned(w, es, o, t);
    case WorkOp(i) =>
      WorkOwned(w, i, o, t);
  }

  /** The task a combinator creates is fresh: no callback has it as its
      child and no existing counter or enumerator names it. */
  lemma FreshUnowned(w: World)
    requires WellFormed(w)
    ensures var n := NewTask(w);
      && NoWrapperCompletes(n.world, n.task)
      && (forall j :: 0 <= j < |w.counters| ==> w.counters[j].result != n.task)
      && (forall m :: 0 <= m < |w.enumerators| ==> w.enumerators[m].result != n.task)
  {
    var t := |w.tasks|;
    forall v | 0 <= v < |w.tasks| && w.tasks[v].continuation.Some?
      ensures w.tasks[v].continuation.value.child != t
    {
      assert SlotOk(w, w.tasks[v]);
    }
    forall j | 0 <= j < |w.pending| && w.pending[j].Invoke?
      ensures w.pending[j].callback.child != t
    {
      assert ItemOk(w, w.pending[j]);
    }
    forall m | 0 <= m < |w.enumerators|
      ensures w.enumerators[m].result != t
    {
      assert EnumeratorOk(w, w.enumerators[m]);
    }
  }

  /** WhenAll creates a result its counter owns. */
  lemma WhenAllCreatesOwned(w: World, ts: seq<TaskId>)
    requires WellFormed(w) && |ts| > 0 && (forall j :: 0 <= j < |ts| ==> ts[j] < |w.tasks|)
    ensures var r := WhenAll(w, ts);
      OwnedBy(r.world, CounterOf(|w.counters|), r.task)
  {
    var n := NewTask(w);
    var o := CounterOf(|w.counters|);
    var t := n.task;
    var w1 := n.world.(counters := n.world.counters + [Counter(|ts|, t)]);
    FreshUnowned(w);
    assert OwnedBy(w1, o, t);
    SubscribeAllOwned(w1, ts, Decrement(|w.counters|), o, t);
  }

  /** Iterate creates a result its enumerator owns. */
  lemma IterateCreatesOwned(w: World, es: seq<Element>)
    requires WellFormed(w) && (forall j :: 0 <= j < |es| ==> ElementOk(w, es[j]))
    ensures var r := Iterate(w, es);
      OwnedBy(r.world, EnumeratorOf(|w.enumerators|), r.task)
  {
    var n := NewTask(w);
    var o := EnumeratorOf(|w.enumerators|);
    var t := n.task;
    var w1 := n.world.(enumerators := n.world.enumerators + [Enumerator(es, 0, false, t)]);
    FreshUnowned(w);
    IterateStartsValid(w, es);
    assert OwnedBy(w1, o, t);
    MoveNextOwned(w1, |w.enumerators|, o, t);
  }
}

=== FILE: scenarios.dfy ===
/** Whole runs from a given state to a given outcome, including the places
    where the code behaves in a way a caller may not expect. */
module Scenarios {
  import opened AsyncTypes
  import opened TaskCore
  import opened Execution

  /** Run(() => throw boom), a worker runs it, Wait rethrows boom;
      Run(() => {}) and Wait returns. */
  lemma RunThenWait(w: World, raises: Option<Err>)
    requires WellFormed(w)
    ensures var s := Run(w, UserCode(raises));
      && WellFormed(s.world)
      && |w.pending| < |s.world.pending|
      && var done := Work(s.world, |w.pending|).world;
         && done.pending == w.pending
         && done.tasks[s.task] == Task(true, raises, None)
         && (raises.None? ==> Wait(done, s.task) == Returned)
         && (raises.Some? ==> Wait(done, s.task) == Rethrown(raises.value))
  {
    var s := Run(w, UserCode(raises));
    var i := |w.pending|;
    assert s.world.pending[..i] == w.pending;
    assert s.world.pending[i + 1..] == [];
    assert s.world.pending[..i] + s.world.pending[i + 1..] == w.pending;
  }

  /** A blocked waiter is woken by the completion it waits for: Wait on an
      incomplete task registers a reset event; Complete queues it, a worker
      sets it, and the task then holds the outcome Wait reports. */
  lemma WaitWakesAfterComplete(w: World, t: TaskId, e: Option<Err>)
    requires WellFormed(w) && t < |w.tasks| && !w.tasks[t].completed
    ensures var b := Wait(w, t);
      && b.Blocked?
      && WellFormed(b.world)
      && var c := Complete(b.world, t, e).world;
         && c.pending == w.pending + [FireContinuation(t)]
         && var done := Work(c, |w.pending|).world;
            && done.tasks[b.signal].completed
            && (e.None? ==> Wait(done, t) == Returned)
            && (e.Some? ==> Wait(done, t) == Rethrown(e.value))
  {
    var b := Wait(w, t);
    var c := Complete(b.world, t, e).world;
    var i := |w.pending|;
    assert c.pending[..i] + c.pending[i + 1..] == w.pending;
  }

  /** The ContinueWith wrapper never looks at the task it was registered on:
      a continuation of a failed task whose delegate returns completes its
      child successfully, so a failure does not travel down a chain. */
  lemma ContinueWithIgnoresParentFailure(w: World, t: TaskId, e: Err)
    requires WellFormed(w) && t < |w.tasks| && w.tasks[t].completed && w.tasks[t].exception == Some(e)
    ensures var s := ContinueWith(w, t, UserCode(None));
      && WellFormed(s.world)
      && |w.pending| < |s.world.pending|
      && Work(s.world, |w.pending|).world.tasks[s.task] == Task(true, None, None)
  {
    var s := ContinueWith(w, t, UserCode(None));
    var i := |w.pending|;
    assert s.world.pending[..i] + s.world.pending[i + 1..] == w.pending;
  }

  /** WhenAll over one completed task: a counter of one, a fresh result,
      and the decrement queued last. */
  lemma WhenAllOnCompletedInput(w: World, t: TaskId)
    requires WellFormed(w) && t < |w.tasks| && w.tasks[t].completed
    ensures var r := WhenAll(w, [t]);
      && WellFormed(r.world)
      && r.world.pending == w.pending + [Invoke(Wrapper(|w.tasks| + 1, Decrement(|w.counters|)))]
      && r.world.counters[|w.counters|] == Counter(1, r.task)
      && r.world.tasks[r.task] == Fresh
      && |r.world.tasks| == |w.tasks| + 2
  {
    var r := WhenAll(w, [t]);
    var n := NewTask(w);
    var k := |w.counters|;
    var w1 := n.world.(counters := n.world.counters + [Counter(1, n.task)]);
    var c := ContinueWith(w1, t, Decrement(k));
    assert [t][1..] == [];
    assert SubscribeAll(w1, [t], Decrement(k)) == SubscribeAll(c.world, [], Decrement(k));
  }

  /** WhenAll does not look at the outcomes of its inputs: over one failed
      task, the result completes successfully once the decrement has run. */
  lemma WhenAllIgnoresFailures(w: World, t: TaskId, e: Err)
    requires WellFormed(w) && t < |w.tasks| && w.tasks[t].completed && w.tasks[t].exception == Some(e)
    ensures var r := WhenAll(w, [t]);
      && WellFormed(r.world)
      && |w.pending| < |r.world.pending|
      && Work(r.world, |w.pending|).world.tasks[r.task] == Task(true, None, None)
  {
    var r := WhenAll(w, [t]);
    var k := |w.counters|;
    WhenAllOnCompletedInput(w, t);
    var i := |w.pending|;
    assert r.world.pending[..i] + r.world.pending[i + 1..] == w.pending;
    WorkRuns(r.world, i);
    var wq := r.world.(pending := w.pending);
    var d := CountDown(wq, k);
    assert d.thrown == None && d.world.tasks[r.task] == Task(true, None, None);
  }

  /** Iterate does not look at the outcomes of the element tasks: over one
      failed task, the result completes successfully once the MoveNext
      registered on it has run and found the end. */
  lemma IterateIgnoresFailedElement(w: World, t: TaskId, e: Err)
    requires WellFormed(w) && t < |w.tasks| && w.tasks[t].completed && w.tasks[t].exception == Some(e)
    ensures var r := Iterate(w, [Yields(t)]);
      && |w.pending| < |r.world.pending|
      && var done := Work(r.world, |w.pending|).world;
         && done.tasks[r.task] == Task(true, None, None)
         && done.enumerators[|w.enumerators|].disposed
  {
    var r := Iterate(w, [Yields(t)]);
    var m := |w.enumerators|;
    var nt := NewTask(w);
    var w1 := nt.world.(enumerators := nt.world.enumerators + [Enumerator([Yields(t)], 0, false, nt.task)]);
    assert EnumeratorOk(w1, w1.enumerators[m]);
    var w2 := w1.(enumerators := w1.enumerators[m := w1.enumerators[m].(pulled := 1)]);
    assert EnumeratorOk(w2, w2.enumerators[m]);
    assert r.world == ContinueWith(w2, t, PullNext(m)).world;
    var i := |w.pending|;
    assert r.world.pending == w.pending + [Invoke(Wrapper(|w.tasks| + 1, PullNext(m)))];
    assert r.world.pending[..i] + r.world.pending[i + 1..] == w.pending;
  }

  /** Iterate over a sequence whose first MoveNext throws fails the result
      with that exception at once and pulls nothing; the enumerator is not
      disposed on that path (only the path that runs out disposes it). */
  lemma IterateFirstMoveNextThrows(w: World, e: Err, rest: seq<Element>)
    requires WellFormed(w) && forall j :: 0 <= j < |rest| ==> ElementOk(w, rest[j])
    ensures var r := Iterate(w, [MoveNextThrows(e)] + rest);
      && r.world.tasks[r.task] == Task(true, Some(e), None)
      && r.world.enumerators[|w.enumerators|].pulled == 0
      && !r.world.enumerators[|w.enumerators|].disposed
  {
    var es := [MoveNextThrows(e)] + rest;
    assert forall j :: 0 <= j < |es| ==> ElementOk(w, es[j]);
    var n := NewTask(w);
    var m := |w.enumerators|;
    var w1 := n.world.(enumerators := n.world.enumerators + [Enumerator(es, 0, false, n.task)]);
    assert forall j :: 0 <= j < |es| ==> ElementOk(w1, es[j]) by {
      forall j | 0 <= j < |es| ensures ElementOk(w1, es[j]) {
        assert ElementOk(w, es[j]);
      }
    }
    assert EnumeratorOk(w1, w1.enumerators[m]);
    assert Iterate(w, es).world == MoveNext(w1, m).world;
  }
}

=== FILE: system.dfy ===
/** The whole engine as a transition system.  A step is one public call
    made by user code (each one atomic under the lock of the task it
    touches) or one worker taking an item off the queue and running it.
    User code passes only its own delegates, which return or throw. */
module System {
  import opened AsyncTypes
  import opened TaskCore
  import opened Execution
  import opened Delivery

  datatype Op =
    | NewTaskOp                                          // new MyTask(), as Delay does
    | CompleteOp(task: TaskId, exception: Option<Err>)   // SetResult / SetException
    | ContinueWithOp(task: TaskId, raises: Option<Err>)  // ContinueWith(user delegate)
    | RunOp(raises: Option<Err>)                         // MyTask.Run(user delegate)
    | WhenAllOp(inputs: seq<TaskId>)
    | IterateOp(elements: seq<Element>)
    | WaitOp(task: TaskId)                               // the registering half of Wait
    | WorkOp(index: nat)                                 // a worker runs pending[index]

  predicate Enabled(w: World, op: Op) {
    match op
    case NewTaskOp => true
    case CompleteOp(t, _) => t < |w.tasks|
    case ContinueWithOp(t, _) => t < |w.tasks|
    case RunOp(_) => true
    case WhenAllOp(ts) => forall j :: 0 <= j < |ts| ==> ts[j] < |w.tasks|
    case IterateOp(es) => forall j :: 0 <= j < |es| ==> ElementOk(w, es[j])
    case WaitOp(t) => t < |w.tasks|
    case WorkOp(i) => i < |w.pending|
  }

  function Apply(w: World, op: Op): (r: World)
    requires WellFormed(w) && Enabled(w, op)
    ensures WellFormed(r) && Evolves(w, r)
    ensures !op.WorkOp? ==> w.pending <= r.pending
    ensures op.WorkOp? ==> w.pending[..op.index] + w.pending[op.index + 1..] <= r.pending
  {
    match op
    case NewTaskOp => NewTask(w).world
    case CompleteOp(t, e) => Complete(w, t, e).world
    case ContinueWithOp(t, e) => ContinueWith(w, t, UserCode(e)).world
    case RunOp(e) => Run(w, UserCode(e)).world
    case WhenAllOp(ts) => WhenAll(w, ts).world
    case IterateOp(es) => Iterate(w, es).world
    case WaitOp(t) => if w.tasks[t].completed then w else Wait(w, t).world
    case WorkOp(i) => Work(w, i).world
  }

  /** `ops` can be taken one after the other from `w`. */
  predicate Valid(w: World, ops: seq<Op>)
    requires WellFormed(w)
    decreases |ops|
  {
    |ops| == 0 || (Enabled(w, ops[0]) && Valid(Apply(w, ops[0]), ops[1..]))
  }

  function Replay(w: World, ops: seq<Op>): (r: World)
    requires WellFormed(w) && Valid(w, ops)
    ensures WellFormed(r) && Evolves(w, r)
    decreases |ops|
  {
    if |ops| == 0 then w else Replay(Apply(w, ops[0]), ops[1..])
  }

  /** Callbacks, or kinds of callback, that already exist and that no step
      can create anew: one given wrapper, WhenAll's decrement for a given
      counter, Iterate's MoveNext for a given enumerator. */
  predicate Existing(w: World, s: Selector) {
    match s
    case Exactly(cb) => cb.child < |w.tasks|
    case Running(a) =>
      match a
      case Decrement(k) => k < |w.counters|
      case PullNext(n) => n < |w.enumerators|
      case _ => false
  }

  /** How many deliveries of the selected callbacks a step runs. */
  function Consumed(w: World, op: Op, s: Selector): nat
    requires Enabled(w, op)
  {
    if op.WorkOp? then ItemWeight(w.tasks, w.pending[op.index], s) else 0
  }

  /** Whether a step is a worker running MoveNext of a selected enumerator,
      which registers the next pull. */
  predicate Respawns(w: World, op: Op, s: Selector)
    requires Enabled(w, op)
  {
    && op.WorkOp?
    && var cb := ItemCallback(w, w.pending[op.index]);
       cb.Some? && MaySpawn(w, cb.value.action, s)
  }

  lemma RunOpCount(w: World, a: Action, s: Selector)
    requires WellFormed(w) && ActionOk(w, a)
    ensures Pending(Run(w, a).world, s) == Pending(w, s) + (if Selects(s, Wrapper(|w.tasks|, a)) then 1 else 0)
  {
    var r := Run(w, a).world;
    InSlotsAppend(w.tasks, Fresh, s);
    forall j | 0 <= j < |w.pending|
      ensures ItemWeight(w.tasks, w.pending[j], s) == ItemWeight(r.tasks, w.pending[j], s)
    {
      assert ItemOk(w, w.pending[j]);
    }
    QueuedSameWeights(w.tasks, r.tasks, w.pending, s);
    QueuedAppend(r.tasks, w.pending, Invoke(Wrapper(|w.tasks|, a)), s);
  }

  lemma NewTaskCount(w: World, s: Selector)
    requires WellFormed(w)
    ensures WellFormed(NewTask(w).world)
    ensures Pending(NewTask(w).world, s) == Pending(w, s)
  {
    var r := NewTask(w).world;
    InSlotsAppend(w.tasks, Fresh, s);
    forall j | 0 <= j < |w.pending|
      ensures ItemWeight(w.tasks, w.pending[j], s) == ItemWeight(r.tasks, w.pending[j], s)
    {
      assert ItemOk(w, w.pending[j]);
    }
    QueuedSameWeights(w.tasks, r.tasks, w.pending, s);
  }

  /** Subscribing `a` adds nothing selected when no wrapper around `a` with
      a fresh child is selected. */
  lemma {:induction false} SubscribeAllCount(w: World, ts: seq<TaskId>, a: Action, s: Selector)
    requires WellFormed(w) && ActionOk(w, a)
    requires forall j :: 0 <= j < |ts| ==> ts[j] < |w.tasks|
    requires forall c :: |w.tasks| <= c ==> !Selects(s, Wrapper(c, a))
    ensures Pending(SubscribeAll(w, ts, a), s) <= Pending(w, s)
    decreases |ts|
  {
    if |ts| > 0 {
      var r := ContinueWith(w, ts[0], a);
      ContinueWithCount(w, ts[0], a, s);
      assert forall j :: 0 <= j < |ts| - 1 ==> ts[1..][j] == ts[j + 1];
      SubscribeAllCount(r.world, ts[1..], a, s);
    }
  }

  /** WhenAll creates nothing an existing selector selects. */
  lemma WhenAllCount(w: World, ts: seq<TaskId>, s: Selector)
    requires WellFormed(w) && (forall j :: 0 <= j < |ts| ==> ts[j] < |w.tasks|) && Existing(w, s)
    ensures Pending(WhenAll(w, ts).world, s) <= Pending(w, s)
  {
    var n := NewTask(w);
    NewTaskCount(w, s);
    if |ts| == 0 {
      CompleteConserves(n.world, n.task, None, s);
    } else {
      var k := |w.counters|;
      var w1 := n.world.(counters := n.world.counters + [Counter(|ts|, n.task)]);
      PendingOfSameTasksAndQueue(n.world, w1, s);
      SubscribeAllCount(w1, ts, Decrement(k), s);
    }
  }

  /** Iterate's first MoveNext subscribes only a wrapper of the new
      enumerator, which no existing selector selects. */
  lemma IterateCount(w: World, es: seq<Element>, s: Selector)
    requires WellFormed(w) && (forall j :: 0 <= j < |es| ==> ElementOk(w, es[j])) && Existing(w, s)
    ensures Pending(Iterate(w, es).world, s) <= Pending(w, s)
  {
    var n := NewTask(w);
    NewTaskCount(w, s);
    var i := |w.enumerators|;
    var w1 := n.world.(enumerators := n.world.enumerators + [Enumerator(es, 0, false, n.task)]);
    assert forall j :: 0 <= j < |es| ==> ElementOk(w1, es[j]) by {
      forall j | 0 <= j < |es| ensures ElementOk(w1, es[j]) {
        assert ElementOk(w, es[j]);
      }
    }
    assert EnumeratorOk(w1, w1.enumerators[i]);
    PendingOfSameTasksAndQueue(n.world, w1, s);
    RunActionCount(w1, PullNext(i), s);
  }

  /** No step creates a delivery of an existing callback, except the worker
      running an enumerator's MoveNext, which registers the next pull of
      that same enumerator. */
  lemma ApplyCount(w: World, op: Op, s: Selector)
    requires WellFormed(w) && Enabled(w, op) && Existing(w, s)
    ensures Existing(Apply(w, op), s)
    ensures Pending(Apply(w, op), s) + Consumed(w, op, s)
      <= Pending(w, s) + (if Respawns(w, op, s) then 1 else 0)
  {
    match op
    case NewTaskOp =>
      NewTaskCount(w, s);
    case CompleteOp(t, e) =>
      CompleteConserves(w, t, e, s);
    case ContinueWithOp(t, e) =>
      ContinueWithCount(w, t, UserCode(e), s);
    case RunOp(e) =>
      RunOpCount(w, UserCode(e), s);
    case WaitOp(t) =>
      if !w.tasks[t].completed {
        ContinueWithCount(w, t, SignalWaiter, s);
      }
    case WhenAllOp(ts) =>
      WhenAllCount(w, ts, s);
    case IterateOp(es) =>
      IterateCount(w, es, s);
    case WorkOp(i) =>
      WorkCount(w, i, s);
  }

  lemma RespawnIsConsumed(w: World, op: Op, s: Selector)
    requires WellFormed(w) && Enabled(w, op) && Existing(w, s)
    ensures Respawns(w, op, s) ==> Consumed(w, op, s) == 1 && s.Running? && s.action.PullNext?
  {
  }

  /** How many worker steps of `ops` run a selected delivery. */
  function Deliveries(w: World, ops: seq<Op>, s: Selector): nat
    requires WellFormed(w) && Valid(w, ops)
    decreases |ops|
  {
    if |ops| == 0 then 0 else Consumed(w, ops[0], s) + Deliveries(Apply(w, ops[0]), ops[1..], s)
  }

  /** No step loses a queued delivery, except the worker that runs it. */
  lemma ApplyKeepsQueued(w: World, op: Op, s: Selector)
    requires WellFormed(w) && Enabled(w, op)
    ensures Queued(w.tasks, w.pending, s) <= Queued(Apply(w, op).tasks, Apply(w, op).pending, s) + Consumed(w, op, s)
  {
    var r := Apply(w, op);
    if op.WorkOp? {
      var i := op.index;
      var q := w.pending[..i] + w.pending[i + 1..];
      RemovePreservesWellFormed(w, i);
      QueuedRemove(w.tasks, w.pending, i, s);
      assert WellFormed(w.(pending := q));
      QueuedNeverLost(w, q, r, s);
    } else {
      QueuedNeverLost(w, w.pending, r, s);
    }
  }

  /** Along any interleaving, a wrapper that exists is run at most as many
      times as it is pending at the start, and a queued one is never lost. */
  lemma {:induction false} DeliveryBounds(w: World, ops: seq<Op>, cb: Callback)
    requires WellFormed(w) && Valid(w, ops) && cb.child < |w.tasks|
    ensures Pending(Replay(w, ops), Exactly(cb)) + Deliveries(w, ops, Exactly(cb)) <= Pending(w, Exactly(cb))
    ensures Queued(w.tasks, w.pending, Exactly(cb))
      <= Queued(Replay(w, ops).tasks, Replay(w, ops).pending, Exactly(cb)) + Deliveries(w, ops, Exactly(cb))
    decreases |ops|
  {
    if |ops| > 0 {
      var s := Exactly(cb);
      ApplyCount(w, ops[0], s);
      RespawnIsConsumed(w, ops[0], s);
      ApplyKeepsQueued(w, ops[0], s);
      DeliveryBounds(Apply(w, ops[0]), ops[1..], cb);
    }
  }

  /** One Complete and one ContinueWith on the same task, in the order
      given: the two sides of the race the task's lock settles. */
  function Race(w: World, t: TaskId, e: Option<Err>, a: Action, subscribeFirst: bool): (r: World)
    requires WellFormed(w) && t < |w.tasks| && ActionOk(w, a)
    ensures WellFormed(r) && Evolves(w, r) && w.pending <= r.pending
  {
    if subscribeFirst then Complete(ContinueWith(w, t, a).world, t, e).world
    else ContinueWith(Complete(w, t, e).world, t, a).world
  }

  /** Exactly-once delivery over every interleaving: after one ContinueWith
      and one Complete on the same task, in either order, whatever steps
      follow, the wrapper has been run by a worker exactly once or is still
      queued exactly once, and is never run twice. */
  lemma ExactlyOnceAfterEitherOrder(w: World, t: TaskId, e: Option<Err>, a: Action, subscribeFirst: bool, ops: seq<Op>)
    requires WellFormed(w) && t < |w.tasks| && !w.tasks[t].completed && ActionOk(w, a)
    requires Valid(Race(w, t, e, a, subscribeFirst), ops)
    ensures var w2 := Race(w, t, e, a, subscribeFirst);
      var cb := Exactly(Wrapper(|w.tasks|, a));
      var final := Replay(w2, ops);
      Deliveries(w2, ops, cb) + Queued(final.tasks, final.pending, cb) == 1
  {
    var w2 := Race(w, t, e, a, subscribeFirst);
    var cb := Wrapper(|w.tasks|, a);
    ExactlyOnceDelivery(w, t, e, a);
    DeliveryBounds(w2, ops, cb);
  }
}

=== FILE: task.dfy ===
/** The completion state machine of one MyTask: Complete and its two entry
    points, IsCompleted, ContinueWith, Run and the outcome of Wait.  Each
    function is one critical section of the task's lock. */
module TaskCore {
  import opened AsyncTypes

  /** `new MyTask()`: an incomplete task with an empty slot. */
  function NewTask(w: World): (r: Spawned)
    ensures r.task == |w.tasks| && r.world.tasks == w.tasks + [Fresh]
    ensures r.world.pending == w.pending
    ensures r.world.counters == w.counters && r.world.enumerators == w.enumerators
  {
    Spawned(w.(tasks := w.tasks + [Fresh]), |w.tasks|)
  }

  /** MyThreadPool.QueueWorkItem: append to the pool's queue.  Nothing
      queued earlier is lost or reordered, and only the queue changes. */
  function Enqueue(w: World, item: WorkItem): (r: World)
    ensures |r.pending| == |w.pending| + 1
    ensures r.pending[..|w.pending|] == w.pending && r.pending[|w.pending|] == item
    ensures r.tasks == w.tasks && r.counters == w.counters && r.enumerators == w.enumerators
  {
    w.(pending := w.pending + [item])
  }

  function SetSlot(w: World, t: TaskId, cb: Callback): World
    requires t < |w.tasks|
  {
    w.(tasks := w.tasks[t := w.tasks[t].(continuation := Some(cb))])
  }

  /** Complete(exception): fails on a completed task without touching
      anything; otherwise records the outcome and queues one delegate that
      will run the slot's continuation, if a continuation is registered. */
  function Complete(w: World, t: TaskId, exception: Option<Err>): (r: Step)
    requires t < |w.tasks|
    ensures Evolves(w, r.world) && w.pending <= r.world.pending
    ensures WellFormed(w) ==> WellFormed(r.world)
    ensures r.world.counters == w.counters && r.world.enumerators == w.enumerators
    ensures w.tasks[t].completed ==> r.world == w && r.thrown == Some(AlreadyCompleted)
    ensures !w.tasks[t].completed ==>
      && r.thrown == None
      && |r.world.tasks| == |w.tasks|
      && r.world.tasks[t].completed
      && r.world.tasks[t].exception == exception
      && r.world.tasks[t].continuation == w.tasks[t].continuation
      && (forall u :: 0 <= u < |w.tasks| && u != t ==> r.world.tasks[u] == w.tasks[u])
      && |w.pending| <= |r.world.pending| && r.world.pending[..|w.pending|] == w.pending
      && (w.tasks[t].continuation.None? ==> |r.world.pending| == |w.pending|)
      && (w.tasks[t].continuation.Some? ==>
            |r.world.pending| == |w.pending| + 1 && r.world.pending[|w.pending|] == FireContinuation(t))
  {
    var task := w.tasks[t];
    if task.completed then
      Step(w, Some(AlreadyCompleted))
    else
      var w1 := w.(tasks := w.tasks[t := task.(completed := true, exception := exception)]);
      if task.continuation.None? then
        Step(w1, None)
      else
        assert w1.pending + [FireContinuation(t)] == Enqueue(w1, FireContinuation(t)).pending;
        Step(Enqueue(w1, FireContinuation(t)), None)
  }

  /** SetResult(): complete successfully. */
  function SetResult(w: World, t: TaskId): (r: Step)
    requires t < |w.tasks|
    ensures Evolves(w, r.world) && w.pending <= r.world.pending
    ensures WellFormed(w) ==> WellFormed(r.world)
    ensures r.world.counters == w.counters && r.world.enumerators == w.enumerators
    ensures r.thrown == None <==> !w.tasks[t].completed
    ensures r.thrown.Some? ==> r.thrown.value == AlreadyCompleted && r.world == w
    ensures |r.world.tasks| == |w.tasks|
    ensures r.world.tasks[t].completed
    ensures r.thrown == None ==> r.world.tasks[t].exception == None
  {
    Complete(w, t, None)
  }

  /** SetException(e): complete with `e` stored. */
  function SetException(w: World, t: TaskId, e: Err): (r: Step)
    requires t < |w.tasks|
    ensures Evolves(w, r.world) && w.pending <= r.world.pending
    ensures WellFormed(w) ==> WellFormed(r.world)
    ensures r.world.counters == w.counters && r.world.enumerators == w.enumerators
    ensures r.thrown == None <==> !w.tasks[t].completed
    ensures r.thrown.Some? ==> r.thrown.value == AlreadyCompleted && r.world == w
    ensures |r.world.tasks| == |w.tasks|
    ensures r.world.tasks[t].completed
    ensures r.thrown == None ==> r.world.tasks[t].exception == Some(e)
  {
    Complete(w, t, Some(e))
  }

  /** The IsCompleted property: true exactly when Complete would throw
      and exactly when Wait would not block. */
  function IsCompleted(w: World, t: TaskId): (r: bool)
    requires t < |w.tasks|
    ensures r <==> Complete(w, t, None).thrown == Some(AlreadyCompleted)
    ensures r <==> !Wait(w, t).Blocked?
  {
    w.tasks[t].completed
  }

  /** Once IsCompleted reads true it reads true in every later state, with
      the same stored exception: nothing ever resets `_completed`. */
  lemma IsCompletedStable(w: World, w': World, t: TaskId)
    requires Evolves(w, w') && t < |w.tasks| && IsCompleted(w, t)
    ensures IsCompleted(w', t) && w'.tasks[t].exception == w.tasks[t].exception
  {
  }

  /** After any Complete on `t`, first or not, `t` reads as completed. */
  lemma CompletedAfterComplete(w: World, t: TaskId, e: Option<Err>)
    requires t < |w.tasks|
    ensures IsCompleted(Complete(w, t, e).world, t)
    ensures Complete(w, t, e).thrown == None <==> !IsCompleted(w, t)
  {
  }

  /** ContinueWith(action): creates the child task, then, under the lock,
      queues the wrapper at once if the task is completed and otherwise
      stores it in the slot, replacing whatever was there. */
  function ContinueWith(w: World, t: TaskId, a: Action): (r: Spawned)
    requires t < |w.tasks|
    ensures Evolves(w, r.world) && w.pending <= r.world.pending
    ensures WellFormed(w) && ActionOk(w, a) ==> WellFormed(r.world)
    ensures r.world.counters == w.counters && r.world.enumerators == w.enumerators
    ensures r.task == |w.tasks| && |r.world.tasks| == |w.tasks| + 1
    ensures r.world.tasks[r.task] == Fresh
    ensures forall u :: 0 <= u < |w.tasks| && u != t ==> r.world.tasks[u] == w.tasks[u]
    ensures w.tasks[t].completed ==>
      && r.world.tasks[t] == w.tasks[t]
      && r.world.pending == w.pending + [Invoke(Wrapper(r.task, a))]
    ensures !w.tasks[t].completed ==>
      && r.world.tasks[t] == w.tasks[t].(continuation := Some(Wrapper(r.task, a)))
      && r.world.pending == w.pending
  {
    var s := NewTask(w);
    var cb := Wrapper(s.task, a);
    if s.world.tasks[t].completed then
      Spawned(Enqueue(s.world, Invoke(cb)), s.task)
    else
      Spawned(SetSlot(s.world, t, cb), s.task)
  }

  /** MyTask.Run(action): a fresh task and the same wrapper ContinueWith
      builds, queued at once. */
  function Run(w: World, a: Action): (r: Spawned)
    ensures Evolves(w, r.world)
    ensures WellFormed(w) && ActionOk(w, a) ==> WellFormed(r.world)
    ensures r.task == |w.tasks| && r.world.tasks == w.tasks + [Fresh]
    ensures r.world.pending == w.pending + [Invoke(Wrapper(r.task, a))]
    ensures r.world.counters == w.counters && r.world.enumerators == w.enumerators
  {
    var s := NewTask(w);
    Spawned(Enqueue(s.world, Invoke(Wrapper(s.task, a))), s.task)
  }

  /** Run behaves exactly like ContinueWith on a task that has already
      completed: same child, same queued wrapper, same state. */
  lemma RunIsContinueWithOnCompleted(w: World, t: TaskId, a: Action)
    requires t < |w.tasks| && w.tasks[t].completed
    ensures Run(w, a) == ContinueWith(w, t, a)
  {
  }

  datatype WaitResult =
    | Returned                               // Wait returns normally
    | Rethrown(error: Err)                   // Wait rethrows the stored exception
    | Blocked(world: World, signal: TaskId)  // Wait registered its reset event and blocks

  /** Wait(): on a completed task its outcome is the stored exception; on an
      incomplete one it registers the reset event through ContinueWith
      (displacing any other continuation) and blocks. */
  function Wait(w: World, t: TaskId): (r: WaitResult)
    requires t < |w.tasks|
    ensures w.tasks[t].completed ==>
      && (r == Returned <==> w.tasks[t].exception == None)
      && (r.Rethrown? <==> w.tasks[t].exception.Some?)
      && (r.Rethrown? ==> Some(r.error) == w.tasks[t].exception)
    ensures !w.tasks[t].completed ==>
      && r.Blocked?
      && Evolves(w, r.world)
      && (WellFormed(w) ==> WellFormed(r.world))
      && r.world.tasks[t].continuation == Some(Wrapper(r.signal, SignalWaiter))
      && !r.world.tasks[t].completed
      && r.world.pending == w.pending
  {
    var task := w.tasks[t];
    if task.completed then
      match task.exception
      case None => Returned
      case Some(e) => Rethrown(e)
    else
      var s := ContinueWith(w, t, SignalWaiter);
      Blocked(s.world, s.task)
  }
}

=== FILE: types.dfy ===
/** The state of the MyAsync task engine.

    Every field of a MyTask is written under the task's own lock, and read
    under it except by the delegate Complete queues and by Wait after it has
    blocked; both of those read a task that has completed, whose fields are
    never written again.  So each public operation is one atomic step on a
    `World`.  Tasks are
    never freed; a task is named by its index in `World.tasks`.  Callbacks
    are first-order data: the engine only ever stores the wrapper built by
    ContinueWith/Run, and the wrapped action is one of the four kinds of
    delegate the engine itself creates or receives from user code. */
module AsyncTypes {

  datatype Option<+T> = None | Some(value: T)

  /** Index of a task in `World.tasks`. */
  type TaskId = nat

  /** The exceptions that can be raised. */
  datatype Err =
    | AlreadyCompleted      // InvalidOperationException thrown by a second Complete
    | NullContinuation      // NullReferenceException from invoking an empty slot
    | Raised(code: nat)     // an exception thrown by user code, kept opaque

  /** The delegate a wrapper runs before completing its child task. */
  datatype Action =
    | UserCode(raises: Option<Err>)   // user delegate: returns, or throws `raises`
    | Decrement(counter: nat)         // WhenAll's shared continuation
    | PullNext(enumerator: nat)       // Iterate's local function MoveNext
    | SignalWaiter                    // the reset event Wait registers

  /** The lambda built by ContinueWith and Run: run `action`, then complete
      `child` with whatever `action` threw, or successfully. */
  datatype Callback = Wrapper(child: TaskId, action: Action)

  /** An entry of the thread pool's queue. */
  datatype WorkItem =
    | Invoke(callback: Callback)      // a wrapper queued as it is
    | FireContinuation(task: TaskId)  // queued by Complete; reads the slot of `task` when it runs

  /** The four lock-guarded fields of a task, the execution context left out. */
  datatype Task = Task(completed: bool, exception: Option<Err>, continuation: Option<Callback>)

  /** A task as `new MyTask()` leaves it. */
  const Fresh: Task := Task(false, None, None)

  /** WhenAll's captured `remaining` and its result task. */
  datatype Counter = Counter(remaining: int, result: TaskId)

  /** What one call of the enumerator's MoveNext does: yield a task or throw. */
  datatype Element = Yields(task: TaskId) | MoveNextThrows(error: Err)

  /** Iterate's captured enumerator (`pulled` elements consumed so far) and result task. */
  datatype Enumerator = Enumerator(elements: seq<Element>, pulled: nat, disposed: bool, result: TaskId)

  datatype World = World(
    tasks: seq<Task>,
    pending: seq<WorkItem>,
    counters: seq<Counter>,
    enumerators: seq<Enumerator>)

  /** The state after an atomic step, and the exception the step threw, if any. */
  datatype Step = Step(world: World, thrown: Option<Err>)

  /** The state after an operation that returns a new task. */
  datatype Spawned = Spawned(world: World, task: TaskId)

  predicate ActionOk(w: World, a: Action) {
    match a
    case Decrement(k) => k < |w.counters|
    case PullNext(i) => i < |w.enumerators|
    case _ => true
  }

  predicate CallbackOk(w: World, cb: Callback) {
    cb.child < |w.tasks| && ActionOk(w, cb.action)
  }

  /** A queued item names real tasks; Complete queues FireContinuation only
      for the task it has just completed. */
  predicate ItemOk(w: World, item: WorkItem) {
    match item
    case Invoke(cb) => CallbackOk(w, cb)
    case FireContinuation(t) => t < |w.tasks| && w.tasks[t].completed
  }

  predicate ElementOk(w: World, e: Element) {
    e.Yields? ==> e.task < |w.tasks|
  }

  predicate EnumeratorOk(w: World, en: Enumerator) {
    && en.result < |w.tasks|
    && en.pulled <= |en.elements|
    && forall j :: 0 <= j < |en.elements| ==> ElementOk(w, en.elements[j])
  }

  predicate SlotOk(w: World, t: Task) {
    t.continuation.Some? ==> CallbackOk(w, t.continuation.value)
  }

  /** Every reference in the state names something that exists. */
  predicate WellFormed(w: World) {
    && (forall t :: 0 <= t < |w.tasks| ==> SlotOk(w, w.tasks[t]))
    && (forall i :: 0 <= i < |w.pending| ==> ItemOk(w, w.pending[i]))
    && (forall k :: 0 <= k < |w.counters| ==> w.counters[k].result < |w.tasks|)
    && (forall i :: 0 <= i < |w.enumerators| ==> EnumeratorOk(w, w.enumerators[i]))
  }

  /** How any step may change the state: nothing is ever deleted, and a
      completed task never changes again. */
  predicate Evolves(w: World, w': World) {
    && |w.tasks| <= |w'.tasks|
    && |w.counters| <= |w'.counters|
    && |w.enumerators| <= |w'.enumerators|
    && forall t :: 0 <= t < |w.tasks| && w.tasks[t].completed ==> w'.tasks[t] == w.tasks[t]
  }

  /** Taking an item off the queue keeps every reference valid. */
  lemma RemovePreservesWellFormed(w: World, i: nat)
    requires WellFormed(w) && i < |w.pending|
    ensures WellFormed(w.(pending := w.pending[..i] + w.pending[i + 1..]))
  {
    var q := w.pending[..i] + w.pending[i + 1..];
    forall j | 0 <= j < |q|
      ensures ItemOk(w, q[j])
    {
      if j < i {
        assert q[j] == w.pending[j];
      } else {
        assert q[j] == w.pending[j + 1];
      }
    }
  }
}

=== FILE: whenall.dfy ===
/** WhenAll's shared counter.  Each run of the decrement wrapper lowers
    `remaining` by one; no step ever creates a decrement delivery, so
    `remaining` minus the decrements still pending never shrinks.  With
    distinct inputs the two start equal, so the counter reaches zero exactly
    when the last input's continuation runs and never goes below. */
module WhenAllProofs {
  import opened AsyncTypes
  import opened TaskCore
  import opened Execution
  import opened Delivery
  import opened System

  lemma RunActionCounter(w: World, a: Action, k: nat)
    requires WellFormed(w) && ActionOk(w, a) && k < |w.counters|
    ensures var r := RunAction(w, a).world;
      && |r.counters| == |w.counters|
      && r.counters[k].result == w.counters[k].result
      && r.counters[k].remaining == w.counters[k].remaining - (if a == Decrement(k) then 1 else 0)
      && (a == Decrement(k) && w.counters[k].remaining == 1 ==> r.tasks[w.counters[k].result].completed)
  {
  }

  lemma RunCallbackCounter(w: World, cb: Callback, k: nat)
    requires WellFormed(w) && CallbackOk(w, cb) && k < |w.counters|
    ensures var r := RunCallback(w, cb).world;
      && |r.counters| == |w.counters|
      && r.counters[k].result == w.counters[k].result
      && r.counters[k].remaining == w.counters[k].remaining - (if cb.action == Decrement(k) then 1 else 0)
      && (cb.action == Decrement(k) && w.counters[k].remaining == 1 ==> r.tasks[w.counters[k].result].completed)
  {
    var s := RunAction(w, cb.action);
    RunActionCounter(w, cb.action, k);
  }

  /** A worker step lowers counter `k` by the number of its decrements it
      runs, and the one that takes it from one to zero completes the result. */
  lemma WorkCounter(w: World, i: nat, k: nat)
    requires WellFormed(w) && i < |w.pending| && k < |w.counters|
    ensures var r := Work(w, i).world;
      var ran := ItemWeight(w.tasks, w.pending[i], Running(Decrement(k)));
      && |r.counters| == |w.counters|
      && r.counters[k].result == w.counters[k].result
      && r.counters[k].remaining == w.counters[k].remaining - ran
      && (ran == 1 && w.counters[k].remaining == 1 ==> r.tasks[w.counters[k].result].completed)
  {
    var w1 := w.(pending := w.pending[..i] + w.pending[i + 1..]);
    RemovePreservesWellFormed(w, i);
    match w.pending[i]
    case Invoke(cb) =>
      RunCallbackCounter(w1, cb, k);
    case FireContinuation(t) =>
      if w.tasks[t].continuation.Some? {
        assert SlotOk(w, w.tasks[t]);
        RunCallbackCounter(w1, w.tasks[t].continuation.value, k);
      }
  }

  lemma ApplyCounter(w: World, op: Op, k: nat)
    requires WellFormed(w) && Enabled(w, op) && k < |w.counters|
    ensures var r := Apply(w, op);
      && r.counters[k].result == w.counters[k].result
      && r.counters[k].remaining == w.counters[k].remaining - Consumed(w, op, Running(Decrement(k)))
      && (Consumed(w, op, Running(Decrement(k))) == 1 && w.counters[k].remaining == 1 ==>
            r.tasks[w.counters[k].result].completed)
  {
    if op.WorkOp? {
      WorkCounter(w, op.index, k);
    }
  }

  /** What stays true of counter `k` along any interleaving. */
  ghost predicate CounterInv(w: World, k: nat, slack: int)
    requires k < |w.counters|
  {
    && w.counters[k].result < |w.tasks|
    && w.counters[k].remaining - Pending(w, Running(Decrement(k))) >= slack
    && (w.counters[k].remaining <= 0 ==> w.tasks[w.counters[k].result].completed)
  }

  /** Along any interleaving the counter drops by exactly one per decrement
      run, the slack between it and the pending decrements never shrinks,
      and once it is zero the result task is completed. */
  lemma {:induction false} CounterAlongTrace(w: World, ops: seq<Op>, k: nat, slack: int)
    requires WellFormed(w) && Valid(w, ops) && k < |w.counters| && slack >= 0
    requires CounterInv(w, k, slack)
    ensures var r := Replay(w, ops);
      && CounterInv(r, k, slack)
      && r.counters[k].result == w.counters[k].result
      && r.counters[k].remaining == w.counters[k].remaining - Deliveries(w, ops, Running(Decrement(k)))
    decreases |ops|
  {
    if |ops| > 0 {
      var s := Running(Decrement(k));
      var w1 := Apply(w, ops[0]);
      ApplyCount(w, ops[0], s);
      ApplyCounter(w, ops[0], k);
      assert !Respawns(w, ops[0], s);
      CounterAlongTrace(w1, ops[1..], k, slack);
    }
  }

  /** A fresh counter index is in no callback of a well-formed state. */
  lemma NewCounterUnmentioned(w: World)
    requires WellFormed(w)
    ensures Unmentioned(w, Running(Decrement(|w.counters|)))
  {
    forall t | 0 <= t < |w.tasks| && w.tasks[t].continuation.Some?
      ensures ActionOk(w, w.tasks[t].continuation.value.action)
    {
      assert SlotOk(w, w.tasks[t]);
    }
    forall i | 0 <= i < |w.pending| && w.pending[i].Invoke?
      ensures ActionOk(w, w.pending[i].callback.action)
    {
      assert ItemOk(w, w.pending[i]);
    }
  }

  ghost predicate Distinct(ts: seq<TaskId>) {
    forall j, j' :: 0 <= j < j' < |ts| ==> ts[j] != ts[j']
  }

  /** Subscribing distinct tasks none of which holds the action yet adds
      one delivery per task. */
  lemma {:induction false} SubscribeAllExact(w: World, ts: seq<TaskId>, a: Action)
    requires WellFormed(w) && ActionOk(w, a) && Distinct(ts)
    requires forall j :: 0 <= j < |ts| ==> ts[j] < |w.tasks|
    requires forall j :: 0 <= j < |ts| ==> SlotWeight(w.tasks[ts[j]], Running(a)) == 0
    ensures Pending(SubscribeAll(w, ts, a), Running(a)) == Pending(w, Running(a)) + |ts|
    decreases |ts|
  {
    if |ts| > 0 {
      var r := ContinueWith(w, ts[0], a);
      ContinueWithCount(w, ts[0], a, Running(a));
      assert forall j :: 0 <= j < |ts| - 1 ==> ts[1..][j] == ts[j + 1];
      forall j | 0 <= j < |ts| - 1
        ensures SlotWeight(r.world.tasks[ts[1..][j]], Running(a)) == 0
      {
        assert ts[j + 1] != ts[0];
        assert r.world.tasks[ts[j + 1]] == w.tasks[ts[j + 1]];
      }
      SubscribeAllExact(r.world, ts[1..], a);
    }
  }

  /** Subscribing any tasks, repeated ones included, adds at most one
      delivery per task: a second subscription to an incomplete task only
      overwrites the first. */
  lemma {:induction false} SubscribeAllAtMost(w: World, ts: seq<TaskId>, a: Action)
    requires WellFormed(w) && ActionOk(w, a)
    requires forall j :: 0 <= j < |ts| ==> ts[j] < |w.tasks|
    ensures Pending(SubscribeAll(w, ts, a), Running(a)) <= Pending(w, Running(a)) + |ts|
    decreases |ts|
  {
    if |ts| > 0 {
      var r := ContinueWith(w, ts[0], a);
      ContinueWithCount(w, ts[0], a, Running(a));
      assert forall j :: 0 <= j < |ts| - 1 ==> ts[1..][j] == ts[j + 1];
      SubscribeAllAtMost(r.world, ts[1..], a);
    }
  }

  /** The fresh counter of a WhenAll, before any input is subscribed: no
      decrement of it is pending anywhere. */
  lemma FreshCounterUnpending(w: World, ts: seq<TaskId>)
    requires WellFormed(w) && |ts| > 0
    requires forall j :: 0 <= j < |ts| ==> ts[j] < |w.tasks|
    ensures var n := NewTask(w);
      var w1 := n.world.(counters := n.world.counters + [Counter(|ts|, n.task)]);
      && WellFormed(w1)
      && Pending(w1, Running(Decrement(|w.counters|))) == 0
  {
    var s := Running(Decrement(|w.counters|));
    var n := NewTask(w);
    NewTaskCount(w, s);
    var w1 := n.world.(counters := n.world.counters + [Counter(|ts|, n.task)]);
    NewCounterUnmentioned(w);
    assert Unmentioned(w1, s);
    UnmentionedNothingPending(w1, s);
  }

  /** WhenAll over any non-empty list, repeated inputs included, never
      leaves more decrements pending than its counter. */
  lemma WhenAllStartsCovered(w: World, ts: seq<TaskId>)
    requires WellFormed(w) && |ts| > 0
    requires forall j :: 0 <= j < |ts| ==> ts[j] < |w.tasks|
    ensures var r := WhenAll(w, ts);
      && Pending(r.world, Running(Decrement(|w.counters|))) <= |ts|
      && CounterInv(r.world, |w.counters|, 0)
  {
    var k := |w.counters|;
    var n := NewTask(w);
    var w1 := n.world.(counters := n.world.counters + [Counter(|ts|, n.task)]);
    FreshCounterUnpending(w, ts);
    SubscribeAllAtMost(w1, ts, Decrement(k));
  }

  /** WhenAll over distinct inputs leaves exactly one decrement pending per
      input, matching the counter. */
  lemma WhenAllStartsBalanced(w: World, ts: seq<TaskId>)
    requires WellFormed(w) && |ts| > 0 && Distinct(ts)
    requires forall j :: 0 <= j < |ts| ==> ts[j] < |w.tasks|
    ensures var r := WhenAll(w, ts);
      && Pending(r.world, Running(Decrement(|w.counters|))) == |ts|
      && CounterInv(r.world, |w.counters|, 0)
  {
    var k := |w.counters|;
    var n := NewTask(w);
    var w1 := n.world.(counters := n.world.counters + [Counter(|ts|, n.task)]);
    FreshCounterUnpending(w, ts);
    SubscribeAllExact(w1, ts, Decrement(k));
  }

  /** WhenAll over any non-empty list, then any interleaving: the counter
      equals the number of inputs minus the decrements run so far, never
      more decrements run than there are inputs, and when the counter is
      zero the result task has been completed (by the decrement that
      reached zero: SetResult, no exception). */
  lemma WhenAllCompletesAfterLast(w: World, ts: seq<TaskId>, ops: seq<Op>)
    requires WellFormed(w) && |ts| > 0
    requires forall j :: 0 <= j < |ts| ==> ts[j] < |w.tasks|
    requires Valid(WhenAll(w, ts).world, ops)
    ensures var r := WhenAll(w, ts);
      var k := |w.counters|;
      var final := Replay(r.world, ops);
      var ran := Deliveries(r.world, ops, Running(Decrement(k)));
      && ran <= |ts|
      && final.counters[k] == Counter(|ts| - ran, r.task)
      && (ran == |ts| ==> final.tasks[r.task].completed)
  {
    var r := WhenAll(w, ts);
    var k := |w.counters|;
    WhenAllStartsCovered(w, ts);
    assert r.world.counters[k] == Counter(|ts|, r.task);
    CounterAlongTrace(r.world, ops, k, 0);
    var final := Replay(r.world, ops);
    assert final.counters[k].remaining >= 0;
  }

  /** The single slot loses a subscription: WhenAll([t, t]) on an incomplete
      task leaves only one decrement pending for a counter of two, so the
      counter never reaches zero and the result is never completed by it. */
  lemma WhenAllRepeatedInputNeverReachesZero(w: World, t: TaskId, ops: seq<Op>)
    requires WellFormed(w) && t < |w.tasks| && !w.tasks[t].completed
    requires Valid(WhenAll(w, [t, t]).world, ops)
    ensures var r := WhenAll(w, [t, t]);
      var final := Replay(r.world, ops);
      && Pending(r.world, Running(Decrement(|w.counters|))) == 1
      && final.counters[|w.counters|].remaining >= 1
  {
    var k := |w.counters|;
    var s := Running(Decrement(k));
    var n := NewTask(w);
    var w1 := n.world.(counters := n.world.counters + [Counter(2, n.task)]);
    FreshCounterUnpending(w, [t, t]);
    var c1 := ContinueWith(w1, t, Decrement(k));
    ContinueWithCount(w1, t, Decrement(k), s);
    var c2 := ContinueWith(c1.world, t, Decrement(k));
    ContinueWithCount(c1.world, t, Decrement(k), s);
    assert [t, t][1..] == [t] && [t][1..] == [];
    assert SubscribeAll(c1.world, [t], Decrement(k)) == SubscribeAll(c2.world, [], Decrement(k));
    assert SubscribeAll(w1, [t, t], Decrement(k)) == c2.world;
    var r := WhenAll(w, [t, t]);
    assert CounterInv(r.world, k, 1);
    CounterAlongTrace(r.world, ops, k, 1);
  }
}

=== FILE: whenall_inputs.dfy ===
/** WhenAll waits for its inputs.  Every input that has not completed yet
    still owes counter `k` a decrement, and every decrement already on the
    queue is owed too; so the counter never drops below the number of
    incomplete inputs plus the decrements queued.  A decrement wrapper in
    the slot of an incomplete task always sits on one of the inputs, so
    completing any other task queues no decrement of `k`.  The counter can
    therefore reach zero only once every input has completed. */
module WhenAllInputs {
  import opened AsyncTypes
  import opened TaskCore
  import opened Execution
  import opened Delivery
  import opened System
  import opened WhenAllProofs

  /** The number of positions of `ts` whose task has not completed. */
  function Incomplete(tasks: seq<Task>, ts: seq<TaskId>): nat
    decreases |ts|
  {
    if |ts| == 0 then 0
    else (if ts[0] < |tasks| && !tasks[ts[0]].completed then 1 else 0) + Incomplete(tasks, ts[1..])
  }

  /** Decrements of counter `k` still owed: queued, or owed by an input that
      has not completed. */
  function Due(w: World, k: nat, ts: seq<TaskId>): nat {
    Queued(w.tasks, w.pending, Running(Decrement(k))) + Incomplete(w.tasks, ts)
  }

  predicate WaitsToDecrement(x: Task, k: nat) {
    !x.completed && x.continuation.Some? && x.continuation.value.action == Decrement(k)
  }

  /** A decrement of `k` waiting in the slot of an incomplete task waits on
      an input. */
  ghost predicate SlotsOnInputs(w: World, k: nat, ts: seq<TaskId>) {
    forall u :: 0 <= u < |w.tasks| && WaitsToDecrement(w.tasks[u], k) ==> u in ts
  }

  ghost predicate InputsInv(w: World, k: nat, ts: seq<TaskId>) {
    && k < |w.counters|
    && (forall j :: 0 <= j < |ts| ==> ts[j] < |w.tasks|)
    && SlotsOnInputs(w, k, ts)
    && w.counters[k].remaining >= Due(w, k, ts)
  }

  // ----- counting incomplete inputs -----

  /** No input becomes incomplete again, so the count never grows; with the
      same completion on every input it is the same. */
  lemma {:induction false} IncompleteMono(tasks: seq<Task>, tasks': seq<Task>, ts: seq<TaskId>)
    requires forall j :: 0 <= j < |ts| ==> ts[j] < |tasks| && ts[j] < |tasks'|
    requires forall j :: 0 <= j < |ts| ==> tasks[ts[j]].completed ==> tasks'[ts[j]].completed
    ensures Incomplete(tasks', ts) <= Incomplete(tasks, ts)
    ensures (forall j :: 0 <= j < |ts| ==> tasks'[ts[j]].completed == tasks[ts[j]].completed) ==>
      Incomplete(tasks', ts) == Incomplete(tasks, ts)
    decreases |ts|
  {
    if |ts| > 0 {
      assert forall j :: 0 <= j < |ts| - 1 ==> ts[1..][j] == ts[j + 1];
      IncompleteMono(tasks, tasks', ts[1..]);
    }
  }

  /** Completing an input lowers the count by at least one. */
  lemma {:induction false} IncompleteDrops(tasks: seq<Task>, tasks': seq<Task>, ts: seq<TaskId>, u: TaskId)
    requires forall j :: 0 <= j < |ts| ==> ts[j] < |tasks| && ts[j] < |tasks'|
    requires forall j :: 0 <= j < |ts| ==> tasks[ts[j]].completed ==> tasks'[ts[j]].completed
    requires u in ts && u < |tasks| && u < |tasks'| && !tasks[u].completed && tasks'[u].completed
    ensures Incomplete(tasks', ts) + 1 <= Incomplete(tasks, ts)
    decreases |ts|
  {
    assert forall j :: 0 <= j < |ts| - 1 ==> ts[1..][j] == ts[j + 1];
    if ts[0] == u {
      IncompleteMono(tasks, tasks', ts[1..]);
    } else {
      IncompleteDrops(tasks, tasks', ts[1..], u);
    }
  }

  /** With nothing incomplete, every input has completed. */
  lemma {:induction false} IncompleteZero(tasks: seq<Task>, ts: seq<TaskId>)
    requires forall j :: 0 <= j < |ts| ==> ts[j] < |tasks|
    requires Incomplete(tasks, ts) == 0
    ensures forall j :: 0 <= j < |ts| ==> tasks[ts[j]].completed
    decreases |ts|
  {
    if |ts| > 0 {
      assert forall j :: 0 <= j < |ts| - 1 ==> ts[1..][j] == ts[j + 1];
      IncompleteZero(tasks, ts[1..]);
      forall j | 0 <= j < |ts|
        ensures tasks[ts[j]].completed
      {
        if j > 0 {
          assert ts[j] == ts[1..][j - 1];
        }
      }
    }
  }

  // ----- how each operation moves the owed count -----

  /** Completing a task queues a decrement of `k` only if the task is an
      input, whose completion pays for it. */
  lemma CompleteDue(w: World, u: TaskId, e: Option<Err>, k: nat, ts: seq<TaskId>)
    requires u < |w.tasks| && (forall j :: 0 <= j < |ts| ==> ts[j] < |w.tasks|)
    requires SlotsOnInputs(w, k, ts)
    ensures var r := Complete(w, u, e).world;
      SlotsOnInputs(r, k, ts) && Due(r, k, ts) <= Due(w, k, ts)
  {
    var s := Running(Decrement(k));
    var r := Complete(w, u, e).world;
    if !w.tasks[u].completed {
      forall j | 0 <= j < |w.pending|
        ensures ItemWeight(w.tasks, w.pending[j], s) == ItemWeight(r.tasks, w.pending[j], s)
      {
      }
      QueuedSameWeights(w.tasks, r.tasks, w.pending, s);
      IncompleteMono(w.tasks, r.tasks, ts);
      if w.tasks[u].continuation.Some? {
        QueuedAppend(r.tasks, w.pending, FireContinuation(u), s);
        assert r.pending == w.pending + [FireContinuation(u)];
        if w.tasks[u].continuation.value.action == Decrement(k) {
          IncompleteDrops(w.tasks, r.tasks, ts, u);
        }
      } else {
        assert r.pending == w.pending;
      }
    }
  }

  lemma NewTaskDue(w: World, k: nat, ts: seq<TaskId>)
    requires (forall j :: 0 <= j < |ts| ==> ts[j] < |w.tasks|) && SlotsOnInputs(w, k, ts)
    ensures var r := NewTask(w).world;
      SlotsOnInputs(r, k, ts) && Due(r, k, ts) == Due(w, k, ts)
  {
    var s := Running(Decrement(k));
    var r := NewTask(w).world;
    forall j | 0 <= j < |w.pending|
      ensures ItemWeight(w.tasks, w.pending[j], s) == ItemWeight(r.tasks, w.pending[j], s)
    {
    }
    QueuedSameWeights(w.tasks, r.tasks, w.pending, s);
    IncompleteMono(w.tasks, r.tasks, ts);
  }

  /** Subscribing anything but the decrement of `k` owes nothing new. */
  lemma ContinueWithDue(w: World, u: TaskId, a: Action, k: nat, ts: seq<TaskId>)
    requires WellFormed(w) && u < |w.tasks| && a != Decrement(k)
    requires (forall j :: 0 <= j < |ts| ==> ts[j] < |w.tasks|) && SlotsOnInputs(w, k, ts)
    ensures var r := ContinueWith(w, u, a).world;
      SlotsOnInputs(r, k, ts) && Due(r, k, ts) == Due(w, k, ts)
  {
    var s := Running(Decrement(k));
    var r := ContinueWith(w, u, a).world;
    forall j | 0 <= j < |w.pending|
      ensures ItemWeight(w.tasks, w.pending[j], s) == ItemWeight(r.tasks, w.pending[j], s)
    {
      assert ItemOk(w, w.pending[j]);
    }
    QueuedSameWeights(w.tasks, r.tasks, w.pending, s);
    IncompleteMono(w.tasks, r.tasks, ts);
    if w.tasks[u].completed {
      QueuedAppend(r.tasks, w.pending, Invoke(Wrapper(|w.tasks|, a)), s);
    }
  }

  lemma {:induction false} SubscribeAllDue(w: World, xs: seq<TaskId>, a: Action, k: nat, ts: seq<TaskId>)
    requires WellFormed(w) && ActionOk(w, a) && a != Decrement(k)
    requires forall j :: 0 <= j < |xs| ==> xs[j] < |w.tasks|
    requires (forall j :: 0 <= j < |ts| ==> ts[j] < |w.tasks|) && SlotsOnInputs(w, k, ts)
    ensures var r := SubscribeAll(w, xs, a);
      SlotsOnInputs(r, k, ts) && Due(r, k, ts) == Due(w, k, ts)
    decreases |xs|
  {
    if |xs| > 0 {
      var c := ContinueWith(w, xs[0], a);
      ContinueWithDue(w, xs[0], a, k, ts);
      assert forall j :: 0 <= j < |xs| - 1 ==> xs[1..][j] == xs[j + 1];
      SubscribeAllDue(c.world, xs[1..], a, k, ts);
    }
  }

  lemma MoveNextDue(w: World, m: nat, k: nat, ts: seq<TaskId>)
    requires WellFormed(w) && m < |w.enumerators|
    requires (forall j :: 0 <= j < |ts| ==> ts[j] < |w.tasks|) && SlotsOnInputs(w, k, ts)
    ensures var r := MoveNext(w, m).world;
      SlotsOnInputs(r, k, ts) && Due(r, k, ts) <= Due(w, k, ts)
  {
    var en := w.enumerators[m];
    assert EnumeratorOk(w, en);
    if en.pulled < |en.elements| {
      match en.elements[en.pulled]
      case MoveNextThrows(e) =>
        CompleteDue(w, en.result, Some(e), k, ts);
      case Yields(u) =>
        var w1 := w.(enumerators := w.enumerators[m := en.(pulled := en.pulled + 1)]);
        assert ElementOk(w, en.elements[en.pulled]);
        assert EnumeratorOk(w1, w1.enumerators[m]);
        ContinueWithDue(w1, u, PullNext(m), k, ts);
    } else {
      var w1 := w.(enumerators := w.enumerators[m := en.(disposed := true)]);
      CompleteDue(w1, en.result, None, k, ts);
    }
  }

  lemma RunActionDue(w: World, a: Action, k: nat, ts: seq<TaskId>)
    requires WellFormed(w) && ActionOk(w, a)
    requires (forall j :: 0 <= j < |ts| ==> ts[j] < |w.tasks|) && SlotsOnInputs(w, k, ts)
    ensures var r := RunAction(w, a).world;
      SlotsOnInputs(r, k, ts) && Due(r, k, ts) <= Due(w, k, ts)
  {
    match a
    case UserCode(_) =>
    case SignalWaiter =>
    case Decrement(j) =>
      var c := w.counters[j];
      var w1 := w.(counters := w.counters[j := c.(remaining := c.remaining - 1)]);
      if c.remaining - 1 == 0 {
        CompleteDue(w1, c.result, None, k, ts);
      }
    case PullNext(m) =>
      MoveNextDue(w, m, k, ts);
  }

  lemma RunCallbackDue(w: World, cb: Callback, k: nat, ts: seq<TaskId>)
    requires WellFormed(w) && CallbackOk(w, cb)
    requires (forall j :: 0 <= j < |ts| ==> ts[j] < |w.tasks|) && SlotsOnInputs(w, k, ts)
    ensures var r := RunCallback(w, cb).world;
      SlotsOnInputs(r, k, ts) && Due(r, k, ts) <= Due(w, k, ts)
  {
    var s := RunAction(w, cb.action);
    RunActionDue(w, cb.action, k, ts);
    CompleteDue(s.world, cb.child, s.thrown, k, ts);
  }

  /** A worker step pays off the decrement it runs, if any, and owes
      nothing new. */
  lemma WorkDue(w: World, i: nat, k: nat, ts: seq<TaskId>)
    requires WellFormed(w) && i < |w.pending|
    requires (forall j :: 0 <= j < |ts| ==> ts[j] < |w.tasks|) && SlotsOnInputs(w, k, ts)
    ensures var r := Work(w, i).world;
      && SlotsOnInputs(r, k, ts)
      && Due(r, k, ts) + ItemWeight(w.tasks, w.pending[i], Running(Decrement(k))) <= Due(w, k, ts)
  {
    var w1 := w.(pending := w.pending[..i] + w.pending[i + 1..]);
    RemovePreservesWellFormed(w, i);
    QueuedRemove(w.tasks, w.pending, i, Running(Decrement(k)));
    match w.pending[i]
    case Invoke(cb) =>
      RunCallbackDue(w1, cb, k, ts);
    case FireContinuation(t) =>
      if w.tasks[t].continuation.Some? {
        assert SlotOk(w, w.tasks[t]);
        RunCallbackDue(w1, w.tasks[t].continuation.value, k, ts);
      }
  }

  /** WhenAll over other inputs subscribes a different counter's decrement. */
  lemma WhenAllDue(w: World, xs: seq<TaskId>, k: nat, ts: seq<TaskId>)
    requires WellFormed(w) && k < |w.counters| && (forall j :: 0 <= j < |xs| ==> xs[j] < |w.tasks|)
    requires (forall j :: 0 <= j < |ts| ==> ts[j] < |w.tasks|) && SlotsOnInputs(w, k, ts)
    ensures var r := WhenAll(w, xs).world;
      SlotsOnInputs(r, k, ts) && Due(r, k, ts) <= Due(w, k, ts)
  {
    var n := NewTask(w);
    NewTaskDue(w, k, ts);
    if |xs| == 0 {
      CompleteDue(n.world, n.task, None, k, ts);
    } else {
      var w1 := n.world.(counters := n.world.counters + [Counter(|xs|, n.task)]);
      FreshCounterUnpending(w, xs);
      SubscribeAllDue(w1, xs, Decrement(|w.counters|), k, ts);
    }
  }

  lemma IterateDue(w: World, es: seq<Element>, k: nat, ts: seq<TaskId>)
    requires WellFormed(w) && (forall j :: 0 <= j < |es| ==> ElementOk(w, es[j]))
    requires (forall j :: 0 <= j < |ts| ==> ts[j] < |w.tasks|) && SlotsOnInputs(w, k, ts)
    ensures var r := Iterate(w, es).world;
      SlotsOnInputs(r, k, ts) && Due(r, k, ts) <= Due(w, k, ts)
  {
    var n := NewTask(w);
    NewTaskDue(w, k, ts);
    var w1 := n.world.(enumerators := n.world.enumerators + [Enumerator(es, 0, false, n.task)]);
    assert forall j :: 0 <= j < |es| ==> ElementOk(w1, es[j]) by {
      forall j | 0 <= j < |es| ensures ElementOk(w1, es[j]) {
        assert ElementOk(w, es[j]);
      }
    }
    assert EnumeratorOk(w1, w1.enumerators[|w.enumerators|]);
    MoveNextDue(w1, |w.enumerators|, k, ts);
  }

  /** Every step lowers what is owed by at least the decrements it runs. */
  lemma ApplyDue(w: World, op: Op, k: nat, ts: seq<TaskId>)
    requires WellFormed(w) && Enabled(w, op) && k < |w.counters|
    requires (forall j :: 0 <= j < |ts| ==> ts[j] < |w.tasks|) && SlotsOnInputs(w, k, ts)
    ensures var r := Apply(w, op);
      && SlotsOnInputs(r, k, ts)
      && Due(r, k, ts) + Consumed(w, op, Running(Decrement(k))) <= Due(w, k, ts)
  {
    var s := Running(Decrement(k));
    match op
    case NewTaskOp =>
      NewTaskDue(w, k, ts);
    case CompleteOp(u, e) =>
      CompleteDue(w, u, e, k, ts);
    case ContinueWithOp(u, e) =>
      ContinueWithDue(w, u, UserCode(e), k, ts);
    case RunOp(e) =>
      var r := Run(w, UserCode(e)).world;
      NewTaskDue(w, k, ts);
      QueuedAppend(r.tasks, w.pending, Invoke(Wrapper(|w.tasks|, UserCode(e))), s);
    case WaitOp(u) =>
      if !w.tasks[u].completed {
        ContinueWithDue(w, u, SignalWaiter, k, ts);
      }
    case WhenAllOp(xs) =>
      WhenAllDue(w, xs, k, ts);
    case IterateOp(es) =>
      IterateDue(w, es, k, ts);
    case WorkOp(i) =>
      WorkDue(w, i, k, ts);
  }

  // ----- WhenAll owes exactly what it counts -----

  /** Subscribing one input to the decrement of `k` queues a decrement if
      the input has already completed, and otherwise puts it in the input's
      slot; no task's completion changes. */
  lemma SubscribeInputDue(w: World, u: TaskId, k: nat, ts: seq<TaskId>)
    requires WellFormed(w) && k < |w.counters| && u < |w.tasks| && u in ts
    requires SlotsOnInputs(w, k, ts)
    ensures var c := ContinueWith(w, u, Decrement(k)).world;
      && SlotsOnInputs(c, k, ts)
      && Queued(c.tasks, c.pending, Running(Decrement(k)))
           == Queued(w.tasks, w.pending, Running(Decrement(k))) + (if w.tasks[u].completed then 1 else 0)
      && forall v :: 0 <= v < |w.tasks| ==> c.tasks[v].completed == w.tasks[v].completed
  {
    var s := Running(Decrement(k));
    var c := ContinueWith(w, u, Decrement(k)).world;
    forall j | 0 <= j < |w.pending|
      ensures ItemWeight(w.tasks, w.pending[j], s) == ItemWeight(c.tasks, w.pending[j], s)
    {
      assert ItemOk(w, w.pending[j]);
    }
    QueuedSameWeights(w.tasks, c.tasks, w.pending, s);
    if w.tasks[u].completed {
      QueuedAppend(c.tasks, w.pending, Invoke(Wrapper(|w.tasks|, Decrement(k))), s);
    }
  }

  /** One step of SubscribeInputsDue: subscribing the first input leaves
      the rest ready to subscribe, and accounts for that input. */
  lemma SubscribeFirstInputDue(w: World, xs: seq<TaskId>, k: nat, ts: seq<TaskId>)
    requires WellFormed(w) && k < |w.counters| && |xs| > 0
    requires forall j :: 0 <= j < |xs| ==> xs[j] < |w.tasks| && xs[j] in ts
    requires (forall j :: 0 <= j < |ts| ==> ts[j] < |w.tasks|) && SlotsOnInputs(w, k, ts)
    ensures var c := ContinueWith(w, xs[0], Decrement(k)).world;
      && WellFormed(c) && k < |c.counters|
      && (forall j :: 0 <= j < |xs[1..]| ==> xs[1..][j] < |c.tasks| && xs[1..][j] in ts)
      && (forall j :: 0 <= j < |ts| ==> ts[j] < |c.tasks|) && SlotsOnInputs(c, k, ts)
      && SubscribeAll(w, xs, Decrement(k)) == SubscribeAll(c, xs[1..], Decrement(k))
      && Incomplete(c.tasks, ts) == Incomplete(w.tasks, ts)
      && Queued(c.tasks, c.pending, Running(Decrement(k))) + Incomplete(w.tasks, xs)
           == Queued(w.tasks, w.pending, Running(Decrement(k))) + 1 + Incomplete(c.tasks, xs[1..])
  {
    var c := ContinueWith(w, xs[0], Decrement(k)).world;
    SubscribeInputDue(w, xs[0], k, ts);
    IncompleteMono(w.tasks, c.tasks, ts);
    assert forall j :: 0 <= j < |xs| - 1 ==> xs[1..][j] == xs[j + 1];
    IncompleteMono(w.tasks, c.tasks, xs[1..]);
  }

  /** Subscribing inputs to the decrement of `k` queues exactly one
      decrement per position whose input has already completed, and puts
      the rest in the slots of inputs. */
  lemma {:induction false} SubscribeInputsDue(w: World, xs: seq<TaskId>, k: nat, ts: seq<TaskId>)
    requires WellFormed(w) && k < |w.counters|
    requires forall j :: 0 <= j < |xs| ==> xs[j] < |w.tasks| && xs[j] in ts
    requires (forall j :: 0 <= j < |ts| ==> ts[j] < |w.tasks|) && SlotsOnInputs(w, k, ts)
    ensures var r := SubscribeAll(w, xs, Decrement(k));
      && SlotsOnInputs(r, k, ts)
      && Incomplete(r.tasks, ts) == Incomplete(w.tasks, ts)
      && Queued(r.tasks, r.pending, Running(Decrement(k))) + Incomplete(w.tasks, xs)
           == Queued(w.tasks, w.pending, Running(Decrement(k))) + |xs|
    decreases |xs|
  {
    if |xs| > 0 {
      SubscribeFirstInputDue(w, xs, k, ts);
      SubscribeInputsDue(ContinueWith(w, xs[0], Decrement(k)).world, xs[1..], k, ts);
    }
  }

  /** WhenAll over any non-empty list owes no more than its counter. */
  lemma WhenAllStartsInputs(w: World, ts: seq<TaskId>)
    requires WellFormed(w) && |ts| > 0
    requires forall j :: 0 <= j < |ts| ==> ts[j] < |w.tasks|
    ensures InputsInv(WhenAll(w, ts).world, |w.counters|, ts)
  {
    var k := |w.counters|;
    var s := Running(Decrement(k));
    var n := NewTask(w);
    var w1 := n.world.(counters := n.world.counters + [Counter(|ts|, n.task)]);
    FreshCounterUnpending(w, ts);
    forall u | 0 <= u < |w1.tasks|
      ensures SlotWeight(w1.tasks[u], s) == 0
    {
      InSlotsCounts(w1.tasks, u, s);
    }
    assert forall j :: 0 <= j < |ts| ==> ts[j] < |w1.tasks| && ts[j] in ts;
    SubscribeInputsDue(w1, ts, k, ts);
  }

  /** What is owed never exceeds the counter, along any interleaving. */
  lemma InputsStep(w: World, op: Op, k: nat, ts: seq<TaskId>)
    requires WellFormed(w) && Enabled(w, op) && InputsInv(w, k, ts)
    ensures InputsInv(Apply(w, op), k, ts)
  {
    ApplyDue(w, op, k, ts);
    ApplyCounter(w, op, k);
  }

  lemma {:induction false} InputsAlongTrace(w: World, ops: seq<Op>, k: nat, ts: seq<TaskId>)
    requires WellFormed(w) && Valid(w, ops) && InputsInv(w, k, ts)
    ensures InputsInv(Replay(w, ops), k, ts)
    decreases |ops|
  {
    if |ops| > 0 {
      InputsStep(w, ops[0], k, ts);
      InputsAlongTrace(Apply(w, ops[0]), ops[1..], k, ts);
    }
  }

  /** WhenAll, then any interleaving: while any input is incomplete the
      counter stays above zero. */
  lemma CounterWaitsForInputs(w: World, ts: seq<TaskId>, ops: seq<Op>)
    requires WellFormed(w) && |ts| > 0
    requires forall j :: 0 <= j < |ts| ==> ts[j] < |w.tasks|
    requires Valid(WhenAll(w, ts).world, ops)
    ensures var final := Replay(WhenAll(w, ts).world, ops);
      var k := |w.counters|;
      && k < |final.counters|
      && (final.counters[k].remaining <= 0 ==> forall j :: 0 <= j < |ts| ==> final.tasks[ts[j]].completed)
  {
    var r := WhenAll(w, ts);
    var k := |w.counters|;
    WhenAllStartsInputs(w, ts);
    InputsAlongTrace(r.world, ops, k, ts);
    var final := Replay(r.world, ops);
    if final.counters[k].remaining <= 0 {
      IncompleteZero(final.tasks, ts);
    }
  }
}

=== FILE: whenall_result.dfy ===
/** WhenAll's result task belongs to its counter: no wrapper completes it,
    no other counter and no enumerator does.  So, as long as user code does
    not complete it by hand, it is completed by the decrement that takes the
    counter from one to zero and by nothing else — never earlier, and always
    successfully. */
module WhenAllResult {
  import opened AsyncTypes
  import opened TaskCore
  import opened Execution
  import opened Delivery
  import opened System
  import opened WhenAllProofs
  import opened WhenAllInputs
  import opened Ownership

  /** The relation between the counter and its result task. */
  ghost predicate ResultInv(w: World, k: nat, t: TaskId)
    requires k < |w.counters|
  {
    && OwnedBy(w, CounterOf(k), t)
    && CounterInv(w, k, 0)
    && (w.tasks[t].completed <==> w.counters[k].remaining == 0)
    && (w.tasks[t].completed ==> w.tasks[t].exception == None)
  }

  lemma ResultStep(w: World, op: Op, k: nat, t: TaskId)
    requires WellFormed(w) && Enabled(w, op) && k < |w.counters| && ResultInv(w, k, t)
    requires !CompletesByHand(op, t)
    ensures k < |Apply(w, op).counters| && ResultInv(Apply(w, op), k, t)
  {
    var s := Running(Decrement(k));
    ApplyOwned(w, op, CounterOf(k), t);
    ApplyCount(w, op, s);
    ApplyCounter(w, op, k);
    assert !Respawns(w, op, s);
  }

  lemma {:induction false} ResultAlongTrace(w: World, ops: seq<Op>, k: nat, t: TaskId)
    requires WellFormed(w) && Valid(w, ops) && k < |w.counters| && ResultInv(w, k, t)
    requires forall j :: 0 <= j < |ops| ==> !CompletesByHand(ops[j], t)
    ensures k < |Replay(w, ops).counters| && ResultInv(Replay(w, ops), k, t)
    decreases |ops|
  {
    if |ops| > 0 {
      ResultStep(w, ops[0], k, t);
      assert forall j :: 0 <= j < |ops| - 1 ==> ops[1..][j] == ops[j + 1];
      ResultAlongTrace(Apply(w, ops[0]), ops[1..], k, t);
    }
  }

  /** WhenAll over any non-empty list, then any interleaving in which user code
      does not complete the result by hand: the result is completed exactly
      when every input's decrement has run — never earlier, and never before
      every input has completed — and then successfully. */
  lemma WhenAllResultExactlyAtLast(w: World, ts: seq<TaskId>, ops: seq<Op>)
    requires WellFormed(w) && |ts| > 0
    requires forall j :: 0 <= j < |ts| ==> ts[j] < |w.tasks|
    requires Valid(WhenAll(w, ts).world, ops)
    requires forall j :: 0 <= j < |ops| ==> !CompletesByHand(ops[j], WhenAll(w, ts).task)
    ensures var r := WhenAll(w, ts);
      var final := Replay(r.world, ops);
      var ran := Deliveries(r.world, ops, Running(Decrement(|w.counters|)));
      && ran <= |ts|
      && (final.tasks[r.task].completed <==> ran == |ts|)
      && (final.tasks[r.task].completed ==> final.tasks[r.task].exception == None)
      && (final.tasks[r.task].completed ==> forall j :: 0 <= j < |ts| ==> final.tasks[ts[j]].completed)
  {
    var r := WhenAll(w, ts);
    var k := |w.counters|;
    WhenAllStartsCovered(w, ts);
    WhenAllCreatesOwned(w, ts);
    WhenAllCompletesAfterLast(w, ts, ops);
    ResultAlongTrace(r.world, ops, k, r.task);
    CounterWaitsForInputs(w, ts, ops);
  }
}
